=== FILE: README.md ===
# JoyTalk Maven Central publishing, in Dafny

This project models how the JoyTalk build scripts publish the library to
Maven Central through the Central Portal API. It models:

- `prepareCentralBundle`, which stages one version's files from the local Maven
  repository into a temporary directory. Artifacts get fresh `.md5` and `.sha1`
  side-cars, signatures are copied as they are, and everything else is dropped.
  The step then checks that the three mandatory files are there.
- the lower-case hexadecimal text written into those side-cars;
- the file layout of `createCentralBundle`'s archive;
- `getAuthHeader`;
- the `curl` command of `uploadToCentral` and how its outcome is handled;
- how `checkCentralStatus`, `publishCentralDeployment` and
  `dropCentralDeployment` resolve the deployment id;
- from the library's build script: the SCM URL fallback, the derived SCM
  connection strings, the developer defaults and the signing decision.

Modules:

- `Wrappers`: `Option` and `Result`.
- `Text`: the Kotlin string operations used: `startsWith`, `endsWith`,
  `contains`, `replace` and `trim`.
- `Hex`: `"%02x"` rendering, and a parser as its inverse.
- `Settings`: project properties and the artifact coordinate.
- `Auth`: the authorization header.
- `Staging`: the staging step and the archive layout.
- `Portal`: upload, deployment-id resolution, and status, publish and drop.
- `Pom`: SCM, developer and signing.

Everything the scripts get from the environment is an explicit input:

- Gradle properties are a `map<string, string>`.
- A directory is a map from file name to bytes.
- A missing directory or file is `None`.
- `listFiles()` order is a sequence parameter.
- MD5, SHA-1, Base64 and the `curl` process are function parameters.

### The old-version filter never rejects anything

The copy loop's comment (build.gradle.kts:91) says files of other versions are
excluded. The code does not do that:

- The "old version" test requires the name NOT to start with
  `artifactId-version`.
- The "current version" test requires that it does.
- Both exact `.module` names already start with that prefix.

So a file is selected exactly when its name starts with `artifactId-version`
(`Staging.SelectedIffPrefix`). For version `1.0.0`, a file such as
`joytalk-1.0.0.1.pom` of a later version `1.0.0.1` is staged
(`Staging.PrefixCollisionSelected`). The model follows the code.

## Model

| member | source | states |
|---|---|---|
| Settings.CoordinateOf | build.gradle.kts:60-62 | Group id, artifact id and version are their properties when set. Otherwise they are `io.github.jt-plug`, `joytalk` and `1.0.0`. The library script reads them the same way at library/build.gradle.kts:60-62. |
| Staging.SelectedIffPrefix | build.gradle.kts:86-97 | The copy loop's guard accepts a name exactly when it starts with `artifactId-version`; the old-version test never rejects a current-version name. |
| Staging.PrefixCollisionSelected | build.gradle.kts:87-97 | For version 1.0.0 the later-version file `joytalk-1.0.0.1.pom` passes the guard. |
| Staging.ChecksumNameDropped | build.gradle.kts:98-116 | A source file whose name ends in `.md5` or `.sha1` is never copied, whatever else holds. |
| Staging.StageInOrderSound | build.gradle.kts:80-119 | For any listing order, the loop's staging directory is exactly the declarative one: every kept file with its bytes, both side-cars of every artifact, nothing else. No write ever lands on a name another file owns. |
| Staging.StagedFromUnique | build.gradle.kts:80-119 | That declarative description determines the directory uniquely. |
| Staging.PrepareBundle | build.gradle.kts:69-131 | If the coordinate's directory is missing, `prepareCentralBundle` fails with the artifact path and leaves staging alone. Otherwise staging is the declarative directory, and it succeeds iff all three mandatory files were staged. Otherwise it fails with the missing ones, in order: exactly the mandatory files that are absent. |
| Staging.PrepareIgnoresOrderAndLeftovers | build.gradle.kts:79-82 | The result depends neither on the listing order nor on what the staging directory held before, because it is emptied first. |
| Staging.PrepareIdempotent | build.gradle.kts:79-131 | Running `prepareCentralBundle` on its own output gives the same result. |
| Staging.StagedArtifact | build.gradle.kts:98-111 | A selected artifact is staged with its bytes. Its `.md5` and `.sha1` side-cars hold the lower-case hex text of the two digests of those bytes. |
| Staging.StagedSignature | build.gradle.kts:112-116 | A selected `.asc` file is staged as it is, with no side-cars. |
| Staging.OtherFilesNotStaged | build.gradle.kts:86-97 | A name lacking the `artifactId-version` prefix never appears in staging. This covers stale versions and checksums of stale versions. |
| Staging.StagedNamesCarryBaseName | build.gradle.kts:76-111 | Every staged name starts with `artifactId-version`. |
| Staging.ChecksumFilesRegenerated | build.gradle.kts:98-116 | Every staged `.md5`/`.sha1` file is the freshly computed digest text of its artifact, never a copy from the source. |
| Staging.NoSidecarsWithoutArtifact | build.gradle.kts:98-116 | A source file that is not an artifact gets no side-cars in staging. |
| Staging.RequiredSourcesSucceed | build.gradle.kts:122-131 | If the three mandatory files exist as regular files in the source directory, the check passes, whatever else is there. |
| Staging.Absent | build.gradle.kts:128 | The missing list holds exactly the names not in the directory, in their original order. |
| Staging.AbsentOnlyLooksAtNames | build.gradle.kts:128-129 | Which mandatory files are missing depends only on those names in the directory. |
| Staging.ArchiveFileName | build.gradle.kts:157-158 | The zip's name starts with the base name and ends with `.zip`; a non-empty version appears as `-version` right before `.zip`. |
| Staging.BundleFileName | build.gradle.kts:157-158 | With base name `central-bundle` and the version cleared, the bundle file is `central-bundle.zip`. |
| Staging.VersionChangesArchiveName | build.gradle.kts:158 | Any non-empty archive version would give a different file name, so clearing it is what keeps the project version out of the name. |
| Staging.ArtifactPath | build.gradle.kts:65 | The path is the group id with every `.` replaced by `/` (same length: each `.` becomes `/` and every other character is kept), then `/artifactId/version`. |
| Staging.DefaultArtifactPath | build.gradle.kts:60-65 | With the default coordinate, the path is `io/github/jt-plug/joytalk/1.0.0`. |
| Staging.BundleEntries | build.gradle.kts:147-155 | Every staged file appears in the archive under `artifactPath/`, with its bytes. Every archive entry is such a file. |
| Hex.HexOf | build.gradle.kts:105 | Each digest byte gives two lower-case hex digits. |
| Hex.HexOfPositions | build.gradle.kts:105 | Characters `2i` and `2i+1` render byte `i`: the bytes are joined in order, with no separator. |
| Hex.ParseHexOf | build.gradle.kts:105 | Parsing the rendered text gives back the digest bytes, so the rendering loses nothing. |
| Hex.HexOfParse | build.gradle.kts:105 | Text the parser accepts is exactly the rendering of its bytes. |
| Hex.DigitValue | build.gradle.kts:105 | A character is a lower-case hex digit iff it has a value, and the digit renders back to it. |
| Hex.ChecksumFile | build.gradle.kts:106 | A side-car holds two bytes per digest byte. |
| Hex.AsciiBytes | build.gradle.kts:106 | `writeText` of ASCII text stores one byte per character with the same code. |
| Auth.AuthHeader | build.gradle.kts:39-51 | The header exists iff there is a non-empty token, or a non-empty user name and password. Otherwise the build stops with the not-configured error. The header starts with `Bearer `. With a token, the rest is the token. |
| Auth.CredentialsOf | build.gradle.kts:32-34 | The token, user name and password are each present iff their property is set, with its value. None has a default. |
| Auth.TokenTakesPrecedence | build.gradle.kts:40-41 | With a non-empty token, the user name and password play no part. |
| Auth.CredentialsFallback | build.gradle.kts:42-48 | Without a token, the header is `Bearer ` + Base64(`user:password`) when both are non-empty, and the not-configured error otherwise. |
| Auth.EmptyTokenIgnored | build.gradle.kts:41 | An empty token counts as none. |
| Text.Trim | build.gradle.kts:216 | `trim()` gives a middle part of the text with no whitespace at either end and only whitespace around it. |
| Text.TrimUnique | build.gradle.kts:216 | Any split into whitespace, a middle part with no outer whitespace, and whitespace yields exactly `trim()`'s result. |
| Text.FirstNonSpace | build.gradle.kts:216 | The forward scan of `trim()` stops at the first non-whitespace character, having passed only whitespace. |
| Text.LastNonSpace | build.gradle.kts:216 | The backward scan stops after the last non-whitespace character, having passed only whitespace. |
| Text.TrimIdempotent | build.gradle.kts:242 | Trimming an already trimmed id changes nothing. |
| Text.ReplaceChar | build.gradle.kts:65 | `replace('.', '/')` changes exactly the `.` characters and keeps the length. |
| Text.ReplaceAllAbsent | library/build.gradle.kts:135-136 | `replace` of a string that does not occur leaves the text unchanged. |
| Text.ReplaceAllKeepsPrefix | library/build.gradle.kts:135-136 | `replace` copies a prefix in which no occurrence can start. |
| Text.ReplaceAllLeading | library/build.gradle.kts:135-136 | A leading occurrence is replaced. |
| Portal.PortalConfigOf | build.gradle.kts:30-36 | The API base URL defaults to `https://central.sonatype.com/api/v1/publisher` and the publishing type to `USER_MANAGED`. The deployment name is present iff its property is set. The credentials come from their three properties. |
| Portal.UploadUrl | build.gradle.kts:184 | The upload URL is the API base URL followed by `/upload`. |
| Portal.UploadCommand | build.gradle.kts:190-203 | The upload command starts with `curl`, carries the `Authorization` header and ends with the upload URL. |
| Portal.UploadFormFields | build.gradle.kts:190-203 | The upload's form fields are the bundle, then the publishing type, then the name exactly when a deployment name is configured. |
| Portal.NameFieldIffConfigured | build.gradle.kts:198-201 | A `name=` field is sent iff a deployment name is configured, even an empty one. |
| Portal.UploadToCentral | build.gradle.kts:178-222 | A missing bundle fails first, then missing credentials. Once both are present, the upload succeeds iff `curl` exits with 0; a non-zero exit fails with the error stream. On exit 0 the id is the trimmed response and is stored in the id file. No failure touches the id file. |
| Portal.UnauthorizedUploadLeavesIdFile | build.gradle.kts:212-214 | A `curl` run that exits with 1 and prints `401 unauthorized` on stderr fails with that text and leaves the id file as it was. |
| Portal.TransportMessage | build.gradle.kts:213 | The exception text is the operation's fixed prefix followed by the error stream. The same shape recurs at :268, :328 and :375. |
| Portal.TransportMessageNamesOperation | build.gradle.kts:268 | Messages from different operations always differ, whatever their error streams, because the prefixes begin with different characters (上, 检, 发, 删). The other prefixes are at :213, :328 and :375. |
| Portal.TransportMessageCarriesStderr | build.gradle.kts:213 | Every transport-failure message contains the captured error stream. |
| Portal.ResolveDeploymentId | build.gradle.kts:239-247 | An id is found iff the property is given or the file exists. The property wins and is used untrimmed; the file is used trimmed. With neither, the Gradle task stops. |
| Portal.UploadThenResolve | build.gradle.kts:216-222 | After a successful upload, a later Gradle task without `-PdeploymentId` reads back exactly the uploaded id. |
| Portal.ActionUrl | build.gradle.kts:249-356 | The status URL (:249) is the base URL, `/status?id=` and the id. The publish URL (:309) and the drop URL (:356) are the base URL, `/deployment/` and the id. In every case the id can be read back from the URL. |
| Portal.ActionCommand | build.gradle.kts:254-260 | Deployment actions run `curl --request` with DELETE for drop and POST otherwise, the `Authorization` header, and the URL last. |
| Portal.PublishAndDropShareResource | build.gradle.kts:309-366 | Publish and drop address the same URL and differ only in the verb. |
| Portal.RunAction | build.gradle.kts:237-383 | An action fails without an id, then without credentials. Once both resolve, it succeeds with the response text iff `curl` exits with 0; otherwise it fails with the captured error stream. This holds for an explicit id as well as for one read from the file. A transport failure names its own operation. |
| Portal.ActionIdPrecedence | build.gradle.kts:298-307 | An explicit id makes the id file irrelevant. Otherwise the trimmed file content is sent. With neither, the action fails before any request. |
| Pom.ScmUrl | library/build.gradle.kts:65-68 | The SCM URL is the `scm.url` property, else the project URL, else empty. |
| Pom.ScmBlock | library/build.gradle.kts:131-137 | The SCM block exists iff the SCM URL is non-empty. It carries that URL and the two connections. |
| Pom.ScmFollowsProjectUrl | library/build.gradle.kts:65-68 | Without `scm.url`, a non-empty project URL alone produces the block, with that URL. |
| Pom.Connection | library/build.gradle.kts:135 | A configured connection is used as is. Otherwise the result starts with `scm:git:` and ends with `.git`; the lemmas below pin what lies between. |
| Pom.DeveloperConnection | library/build.gradle.kts:136 | The same, for the developer connection. |
| Pom.HttpsConnection | library/build.gradle.kts:135 | For a URL `https://` + rest, where rest holds neither scheme, the derived connection is exactly `scm:git:git://` + rest + `.git`: host and path survive unchanged. |
| Pom.HttpConnection | library/build.gradle.kts:135 | The same for an `http://` URL: `scm:git:git://` + rest + `.git`. |
| Pom.HttpsDeveloperConnection | library/build.gradle.kts:136 | For `https://` + rest, the derived developer connection is exactly `scm:git:ssh://git@` + rest + `.git`. |
| Pom.HttpDeveloperConnection | library/build.gradle.kts:136 | The same for an `http://` URL: `scm:git:ssh://git@` + rest + `.git`. |
| Pom.DerivedSchemes | library/build.gradle.kts:135-136 | A derived connection for an `https://` or `http://` URL starts with `scm:git:git://`, and a developer connection with `scm:git:ssh://git@`. |
| Pom.PlainUrlWrapped | library/build.gradle.kts:135-136 | A URL with neither scheme is only wrapped in `scm:git:` and `.git`. |
| Pom.OrDefault | library/build.gradle.kts:125-127 | The fallback is used exactly when the value is absent, empty or equal to it. A non-empty value is kept. |
| Pom.DeveloperOf | library/build.gradle.kts:71-73 | Each developer field is its property or its default, and never empty. |
| Pom.SigningOf | library/build.gradle.kts:85-99 | Signing with GPG happens iff a key id is configured and signing is enabled. Otherwise the disabled warning is given iff signing is disabled, and the unconfigured warning otherwise. |
| Pom.OnlyFalseDisables | library/build.gradle.kts:85 | Any value of the property other than `false` leaves signing on. |
| Pom.DisabledTakesPrecedence | library/build.gradle.kts:86-96 | A key id with signing disabled gives the disabled warning. |

## Left out

- Starting processes: `curl`, `echo` and `jq` are left out. `curl` is a parameter that maps an argument list to exit code, stdout and stderr. The upload and action commands pass no `--fail`, so `curl` exits 0 on an HTTP error status such as 401. The script then treats the error body as a success; an upload stores it, trimmed, as the deployment id. The model's exit code is `curl`'s own and is not related to the HTTP status. The optional `jq` pretty-printing of a status response (build.gradle.kts:274-288) only prints.
- MD5, SHA-1 and Base64 are parameters. Their internals are standard library code.
- Creating the zip archive, the output directory and its file size report are not modelled. Only the archive's entry layout and its file name are. The file name follows Gradle's default naming (base name, `-version` when set, `.zip`); Gradle itself is not part of this model.
- File system failures are not modelled: `mkdirs`, and `delete` returning false. A non-empty subdirectory in the staging directory survives `delete`; the model empties the directory completely.
- Gradle wiring is not modelled: `dependsOn`, `publishToMavenLocal`, task registration and groups.
- The Android, compile and dependency configuration of the library (library/build.gradle.kts:1-57) is not modelled.
- The POM's name, description, URL and license fields are not modelled. They are plain property-or-default values, as `Settings.CoordinateOf` shows for the coordinate.
- The `gpg` invocation and the `signing { }` block are not modelled. Only which branch is taken is.
- Printed messages are left out, including the publish and drop responses. The exception texts are modelled only for the `curl` failures.
- Properties are modelled as strings. A non-string property value would make the `as String` cast throw; that case is left out.
- Kotlin strings are UTF-16 and Dafny's `char` is a Unicode scalar. Every whitespace character `trim()` removes lies in the Basic Multilingual Plane, so the two agree on `trim()`.
- `checkCentralStatus` reports the response text. The model does not interpret the JSON.

=== FILE: auth.dfy ===
/** `getAuthHeader`: the `Authorization` header value sent with every call to
    the publishing portal. A user token takes precedence over a user name and
    password pair; with neither the build stops before any request. */
module Auth {
  import opened Wrappers
  import opened Text
  import opened Settings

  datatype Credentials = Credentials(userToken: Option<string>, username: Option<string>, password: Option<string>)

  datatype AuthError = AuthNotConfigured

  /** `mavenCentral.userToken`, `.username` and `.password`; none has a default. */
  function CredentialsOf(props: Props): (cred: Credentials)
    ensures cred.userToken.Some? <==> "mavenCentral.userToken" in props
    ensures cred.username.Some? <==> "mavenCentral.username" in props
    ensures cred.password.Some? <==> "mavenCentral.password" in props
    ensures cred.userToken.Some? ==> cred.userToken.value == props["mavenCentral.userToken"]
    ensures cred.username.Some? ==> cred.username.value == props["mavenCentral.username"]
    ensures cred.password.Some? ==> cred.password.value == props["mavenCentral.password"]
  {
    Credentials(
      Find(props, "mavenCentral.userToken"),
      Find(props, "mavenCentral.username"),
      Find(props, "mavenCentral.password"))
  }

  /** `!value.isNullOrEmpty()` */
  predicate Present(value: Option<string>) {
    value.Some? && |value.value| > 0
  }

  const BearerPrefix: string := "Bearer "

  /** The header value. `base64` stands for `java.util.Base64`'s basic encoder
      applied to the UTF-8 bytes of its argument. */
  function AuthHeader(cred: Credentials, base64: string -> string): (r: Result<string, AuthError>)
    ensures r.Success? <==> Present(cred.userToken) || (Present(cred.username) && Present(cred.password))
    ensures r.Failure? ==> r.error == AuthNotConfigured
    ensures r.Success? ==> StartsWith(r.value, BearerPrefix)
    ensures Present(cred.userToken) ==> r.Success? && r.value[|BearerPrefix|..] == cred.userToken.value
  {
    var token :=
      if Present(cred.userToken) then Success(cred.userToken.value)
      else if Present(cred.username) && Present(cred.password) then
        Success(base64(cred.username.value + ":" + cred.password.value))
      else Failure(AuthNotConfigured);
    match token
    case Success(t) =>
      StartsWithAppend(BearerPrefix, t);
      Success(BearerPrefix + t)
    case Failure(e) => Failure(e)
  }

  /** A non-empty token wins: the user name and password then play no part. */
  lemma TokenTakesPrecedence(cred: Credentials, username: Option<string>, password: Option<string>, base64: string -> string)
    requires Present(cred.userToken)
    ensures AuthHeader(cred, base64) == AuthHeader(Credentials(cred.userToken, username, password), base64)
  {
  }

  /** Without a usable token the header carries the encoded `user:password`,
      and only when both parts are non-empty. */
  lemma CredentialsFallback(cred: Credentials, base64: string -> string)
    requires !Present(cred.userToken)
    ensures Present(cred.username) && Present(cred.password) ==>
              AuthHeader(cred, base64) == Success(BearerPrefix + base64(cred.username.value + ":" + cred.password.value))
    ensures !(Present(cred.username) && Present(cred.password)) ==> AuthHeader(cred, base64) == Failure(AuthNotConfigured)
  {
  }

  /** An empty token counts as no token at all. */
  lemma EmptyTokenIgnored(cred: Credentials, base64: string -> string)
    requires cred.userToken == Some("")
    ensures AuthHeader(cred, base64) == AuthHeader(cred.(userToken := None), base64)
  {
  }
}

=== FILE: hex.dfy ===
/** Rendering of digest bytes as the text of a checksum side-car file: each
    byte formatted with `"%02x"` and the pieces joined with no separator. A
    parser for that text is the partner that shows the rendering loses
    nothing. */
module Hex {
  import opened Wrappers

  /** A byte, read as its unsigned value. Kotlin's `Byte` is signed, but
      `"%02x"` formats a negative byte as its value plus 256, so only the
      unsigned value matters here. */
  type Byte = x: int | 0 <= x < 256

  const Digits: string := "0123456789abcdef"

  predicate IsLowerHexDigit(c: char) {
    '0' <= c <= '9' || 'a' <= c <= 'f'
  }

  predicate IsLowerHex(s: string) {
    forall i :: 0 <= i < |s| ==> IsLowerHexDigit(s[i])
  }

  function HexDigit(n: nat): (c: char)
    requires n < 16
    ensures IsLowerHexDigit(c)
  {
    Digits[n]
  }

  /** The value of a lower-case hexadecimal digit; `None` for any other character. */
  function DigitValue(c: char): (v: Option<nat>)
    ensures v.Some? <==> IsLowerHexDigit(c)
    ensures v.Some? ==> v.value < 16 && HexDigit(v.value) == c
  {
    if '0' <= c <= '9' then Some(c as int - '0' as int)
    else if 'a' <= c <= 'f' then Some(c as int - 'a' as int + 10)
    else None
  }

  lemma DigitValueOfHexDigit(n: nat)
    requires n < 16
    ensures DigitValue(HexDigit(n)) == Some(n)
  {
  }

  /** `"%02x".format(b)`: exactly two digits, high nibble first. */
  function ByteHex(b: Byte): (r: string)
    ensures |r| == 2 && IsLowerHex(r)
  {
    [HexDigit(b / 16), HexDigit(b % 16)]
  }

  /** `bytes.joinToString("") { "%02x".format(it) }` */
  function HexOf(bytes: seq<Byte>): (r: string)
    ensures |r| == 2 * |bytes|
    ensures IsLowerHex(r)
  {
    if |bytes| == 0 then "" else ByteHex(bytes[0]) + HexOf(bytes[1..])
  }

  /** The two characters at positions `2i` and `2i+1` render byte `i`: the
      bytes are joined in order. */
  lemma {:induction false} HexOfPositions(bytes: seq<Byte>, i: nat)
    requires i < |bytes|
    ensures HexOf(bytes)[2 * i..2 * i + 2] == ByteHex(bytes[i])
    decreases i
  {
    var h := ByteHex(bytes[0]);
    if i > 0 {
      HexOfPositions(bytes[1..], i - 1);
      assert HexOf(bytes)[2 * i..2 * i + 2] == HexOf(bytes[1..])[2 * (i - 1)..2 * (i - 1) + 2];
    }
  }

  /** Reads lower-case hexadecimal text back into bytes, two digits per byte. */
  function ParseHex(s: string): (r: Option<seq<Byte>>)
    ensures r.Some? ==> |s| == 2 * |r.value|
    decreases |s|
  {
    if |s| == 0 then Some([])
    else if |s| == 1 then None
    else
      match (DigitValue(s[0]), DigitValue(s[1]), ParseHex(s[2..]))
      case (Some(hi), Some(lo), Some(rest)) => Some([(hi * 16 + lo) as Byte] + rest)
      case _ => None
  }

  lemma ByteHexDigits(b: Byte)
    ensures DigitValue(ByteHex(b)[0]) == Some(b / 16)
    ensures DigitValue(ByteHex(b)[1]) == Some(b % 16)
    ensures (b / 16) * 16 + b % 16 == b
  {
    DigitValueOfHexDigit(b / 16);
    DigitValueOfHexDigit(b % 16);
  }

  /** Parsing the rendered text gives back the digest bytes. */
  lemma {:induction false} ParseHexOf(bytes: seq<Byte>)
    ensures ParseHex(HexOf(bytes)) == Some(bytes)
  {
    if |bytes| > 0 {
      var s := HexOf(bytes);
      ByteHexDigits(bytes[0]);
      assert s[2..] == HexOf(bytes[1..]);
      ParseHexOf(bytes[1..]);
      assert [bytes[0]] + bytes[1..] == bytes;
    }
  }

  lemma ByteHexOfDigits(hi: nat, lo: nat)
    requires hi < 16 && lo < 16
    ensures ByteHex((hi * 16 + lo) as Byte) == [HexDigit(hi), HexDigit(lo)]
  {
    var n := hi * 16 + lo;
    assert n / 16 == hi && n % 16 == lo;
  }

  /** Text the parser accepts is exactly what rendering its bytes produces:
      rendering is onto the well-formed checksum texts. */
  lemma {:induction false} HexOfParse(s: string)
    requires ParseHex(s).Some?
    ensures HexOf(ParseHex(s).value) == s
    decreases |s|
  {
    if |s| > 0 {
      var hi := DigitValue(s[0]).value;
      var lo := DigitValue(s[1]).value;
      var rest := ParseHex(s[2..]).value;
      var bytes := ParseHex(s).value;
      assert bytes == [(hi * 16 + lo) as Byte] + rest;
      ByteHexOfDigits(hi, lo);
      HexOfParse(s[2..]);
      assert bytes[1..] == rest;
      assert HexOf(bytes) == [s[0], s[1]] + s[2..];
      assert s == [s[0], s[1]] + s[2..];
    }
  }

  /** The UTF-8 bytes of ASCII text: one byte per character, same code. This is
      what `writeText` stores for a checksum text. */
  function AsciiBytes(s: string): (r: seq<Byte>)
    requires forall i :: 0 <= i < |s| ==> s[i] as int < 128
    ensures |r| == |s|
    ensures forall i :: 0 <= i < |s| ==> r[i] == s[i] as int
  {
    seq(|s|, i requires 0 <= i < |s| => s[i] as int)
  }

  /** The bytes of a side-car file holding the hexadecimal text of `digest`. */
  function ChecksumFile(digest: seq<Byte>): (r: seq<Byte>)
    ensures |r| == 2 * |digest|
  {
    var text := HexOf(digest);
    assert forall i :: 0 <= i < |text| ==> IsLowerHexDigit(text[i]);
    AsciiBytes(text)
  }
}

=== FILE: pom.dfy ===
/** The publication metadata decisions of the library's build script: the SCM
    block and its connection strings, the developer entry's fallbacks, and
    whether publications are signed. */
module Pom {
  import opened Wrappers
  import opened Text
  import opened Settings

  // ---------------------------------------------------------------------------
  // SCM

  /** `mavenCentral.scm.url`, falling back to `mavenCentral.url`, which itself
      defaults to the empty string. */
  function ScmUrl(props: Props): (url: string)
    ensures Find(props, "mavenCentral.scm.url").Some? ==> url == props["mavenCentral.scm.url"]
    ensures Find(props, "mavenCentral.scm.url").None? ==> url == Find(props, "mavenCentral.url").GetOr("")
  {
    var projectUrl := Find(props, "mavenCentral.url").GetOr("");
    Find(props, "mavenCentral.scm.url").GetOr(projectUrl)
  }

  const GitScheme: string := "git://"
  const SshScheme: string := "ssh://git@"

  /** `"scm:git:" + url with https:// then http:// replaced by scheme + ".git"` */
  function ScmGitUrl(url: string, scheme: string): string {
    "scm:git:" + ReplaceAll(ReplaceAll(url, "https://", scheme), "http://", scheme) + ".git"
  }

  /** The `connection`: the configured value when set, else the URL rewritten
      to the `git://` scheme. */
  function Connection(url: string, configured: Option<string>): (r: string)
    ensures configured.Some? ==> r == configured.value
    ensures configured.None? ==> StartsWith(r, "scm:git:") && EndsWith(r, ".git")
  {
    match configured
    case Some(value) => value
    case None =>
      var inner := ReplaceAll(ReplaceAll(url, "https://", GitScheme), "http://", GitScheme);
      StartsWithAppend("scm:git:", inner + ".git");
      EndsWithAppend("scm:git:" + inner, ".git");
      ScmGitUrl(url, GitScheme)
  }

  /** The `developerConnection`: the configured value when set, else the URL
      rewritten to the `ssh://git@` scheme. */
  function DeveloperConnection(url: string, configured: Option<string>): (r: string)
    ensures configured.Some? ==> r == configured.value
    ensures configured.None? ==> StartsWith(r, "scm:git:") && EndsWith(r, ".git")
  {
    match configured
    case Some(value) => value
    case None =>
      var inner := ReplaceAll(ReplaceAll(url, "https://", SshScheme), "http://", SshScheme);
      StartsWithAppend("scm:git:", inner + ".git");
      EndsWithAppend("scm:git:" + inner, ".git");
      ScmGitUrl(url, SshScheme)
  }

  /** Rewriting `scheme + rest`: the first replacement turns the leading
      `https://` into `scheme`, and the second finds no `http://` starting
      inside `scheme`. */
  lemma RewriteHttps(rest: string, scheme: string)
    requires NoMatchStartsIn(scheme, "http://")
    ensures ReplaceAll(ReplaceAll("https://" + rest, "https://", scheme), "http://", scheme)
            == scheme + ReplaceAll(ReplaceAll(rest, "https://", scheme), "http://", scheme)
  {
    ReplaceAllLeading("https://", rest, scheme);
    ReplaceAllKeepsPrefix(scheme, ReplaceAll(rest, "https://", scheme), "http://", scheme);
  }

  /** An `http://` URL: the first replacement finds nothing at the start, the
      second rewrites the scheme. */
  lemma RewriteHttp(rest: string, scheme: string)
    ensures ReplaceAll(ReplaceAll("http://" + rest, "https://", scheme), "http://", scheme)
            == scheme + ReplaceAll(ReplaceAll(rest, "https://", scheme), "http://", scheme)
  {
    SchemesDoNotStartHttp();
    ReplaceAllKeepsPrefix("http://", rest, "https://", scheme);
    ReplaceAllLeading("http://", ReplaceAll(rest, "https://", scheme), scheme);
  }

  lemma SchemesDoNotStartHttp()
    ensures NoMatchStartsIn(GitScheme, "http://")
    ensures NoMatchStartsIn(SshScheme, "http://")
    ensures NoMatchStartsIn("http://", "https://")
  {
    forall i | 0 <= i < |GitScheme| ensures MismatchWithin(GitScheme, "http://", i) {
      assert GitScheme[i + 0] != "http://"[0];
    }
    forall i | 0 <= i < |SshScheme| ensures MismatchWithin(SshScheme, "http://", i) {
      if i == 2 {
        assert SshScheme[i + 1] != "http://"[1];
      } else {
        assert SshScheme[i + 0] != "http://"[0];
      }
    }
    forall i | 0 <= i < 7 ensures MismatchWithin("http://", "https://", i) {
      if i == 0 {
        assert "http://"[i + 4] != "https://"[4];
      } else {
        assert "http://"[i + 0] != "https://"[0];
      }
    }
  }

  /** A derived connection for an `https://` or `http://` URL starts with
      `scm:git:git://`; a derived developer connection with
      `scm:git:ssh://git@`. */
  lemma DerivedSchemes(url: string)
    requires StartsWith(url, "https://") || StartsWith(url, "http://")
    ensures StartsWith(Connection(url, None), "scm:git:" + GitScheme)
    ensures StartsWith(DeveloperConnection(url, None), "scm:git:" + SshScheme)
  {
    SchemesDoNotStartHttp();
    if StartsWith(url, "https://") {
      var rest := url[8..];
      assert url == "https://" + rest;
      RewriteHttps(rest, GitScheme);
      RewriteHttps(rest, SshScheme);
      StartsWithAppend("scm:git:" + GitScheme, ReplaceAll(ReplaceAll(rest, "https://", GitScheme), "http://", GitScheme) + ".git");
      StartsWithAppend("scm:git:" + SshScheme, ReplaceAll(ReplaceAll(rest, "https://", SshScheme), "http://", SshScheme) + ".git");
    } else {
      var rest := url[7..];
      assert url == "http://" + rest;
      RewriteHttp(rest, GitScheme);
      RewriteHttp(rest, SshScheme);
      StartsWithAppend("scm:git:" + GitScheme, ReplaceAll(ReplaceAll(rest, "https://", GitScheme), "http://", GitScheme) + ".git");
      StartsWithAppend("scm:git:" + SshScheme, ReplaceAll(ReplaceAll(rest, "https://", SshScheme), "http://", SshScheme) + ".git");
    }
  }

  /** A URL with neither scheme anywhere is wrapped unchanged. */
  lemma PlainUrlWrapped(url: string)
    requires !Contains(url, "https://") && !Contains(url, "http://")
    ensures Connection(url, None) == "scm:git:" + url + ".git"
    ensures DeveloperConnection(url, None) == "scm:git:" + url + ".git"
  {
    ReplaceAllAbsent(url, "https://", GitScheme);
    ReplaceAllAbsent(url, "http://", GitScheme);
    ReplaceAllAbsent(url, "https://", SshScheme);
    ReplaceAllAbsent(url, "http://", SshScheme);
  }

  /** A URL tail without either scheme passes through both replacements. */
  lemma RestUnchanged(rest: string, scheme: string)
    requires !Contains(rest, "https://") && !Contains(rest, "http://")
    ensures ReplaceAll(ReplaceAll(rest, "https://", scheme), "http://", scheme) == rest
  {
    ReplaceAllAbsent(rest, "https://", scheme);
    ReplaceAllAbsent(rest, "http://", scheme);
  }

  /** Once the two replacements are known to give `scheme + rest`, the SCM
      URL is that wrapped in `scm:git:` and `.git`. */
  lemma ScmGitUrlOf(url: string, scheme: string, rest: string)
    requires ReplaceAll(ReplaceAll(url, "https://", scheme), "http://", scheme) == scheme + rest
    ensures ScmGitUrl(url, scheme) == "scm:git:" + scheme + rest + ".git"
  {
  }

  /** `https://host/path` becomes `scm:git:git://host/path.git`: only the
      scheme changes, the host and path survive. */
  lemma HttpsConnection(rest: string)
    requires !Contains(rest, "https://") && !Contains(rest, "http://")
    ensures Connection("https://" + rest, None) == "scm:git:" + GitScheme + rest + ".git"
  {
    SchemesDoNotStartHttp();
    RewriteHttps(rest, GitScheme);
    RestUnchanged(rest, GitScheme);
    ScmGitUrlOf("https://" + rest, GitScheme, rest);
  }

  /** `http://host/path` becomes `scm:git:git://host/path.git`. */
  lemma HttpConnection(rest: string)
    requires !Contains(rest, "https://") && !Contains(rest, "http://")
    ensures Connection("http://" + rest, None) == "scm:git:" + GitScheme + rest + ".git"
  {
    RewriteHttp(rest, GitScheme);
    RestUnchanged(rest, GitScheme);
    ScmGitUrlOf("http://" + rest, GitScheme, rest);
  }

  /** `https://host/path` becomes `scm:git:ssh://git@host/path.git`. */
  lemma HttpsDeveloperConnection(rest: string)
    requires !Contains(rest, "https://") && !Contains(rest, "http://")
    ensures DeveloperConnection("https://" + rest, None) == "scm:git:" + SshScheme + rest + ".git"
  {
    SchemesDoNotStartHttp();
    RewriteHttps(rest, SshScheme);
    RestUnchanged(rest, SshScheme);
    ScmGitUrlOf("https://" + rest, SshScheme, rest);
  }

  /** `http://host/path` becomes `scm:git:ssh://git@host/path.git`. */
  lemma HttpDeveloperConnection(rest: string)
    requires !Contains(rest, "https://") && !Contains(rest, "http://")
    ensures DeveloperConnection("http://" + rest, None) == "scm:git:" + SshScheme + rest + ".git"
  {
    RewriteHttp(rest, SshScheme);
    RestUnchanged(rest, SshScheme);
    ScmGitUrlOf("http://" + rest, SshScheme, rest);
  }

  datatype Scm = Scm(url: string, connection: string, developerConnection: string)

  /** The `scm { … }` block, emitted only for a non-empty SCM URL. */
  function ScmBlock(props: Props): (r: Option<Scm>)
    ensures r.Some? <==> |ScmUrl(props)| > 0
    ensures r.Some? ==> r.value.url == ScmUrl(props)
    ensures r.Some? ==> r.value.connection == Connection(ScmUrl(props), Find(props, "mavenCentral.scm.connection"))
    ensures r.Some? ==> r.value.developerConnection
                        == DeveloperConnection(ScmUrl(props), Find(props, "mavenCentral.scm.developerConnection"))
  {
    var url := ScmUrl(props);
    if |url| > 0 then
      Some(Scm(url,
               Connection(url, Find(props, "mavenCentral.scm.connection")),
               DeveloperConnection(url, Find(props, "mavenCentral.scm.developerConnection"))))
    else None
  }

  /** Without any URL property there is no SCM block; a project URL alone is
      enough to get one. */
  lemma ScmFollowsProjectUrl(props: Props)
    requires "mavenCentral.scm.url" !in props
    ensures ScmBlock(props).Some? <==> "mavenCentral.url" in props && |props["mavenCentral.url"]| > 0
    ensures ScmBlock(props).Some? ==> ScmBlock(props).value.url == props["mavenCentral.url"]
  {
  }

  // ---------------------------------------------------------------------------
  // Developer

  const DefaultDeveloperId: string := "jt-plug"
  const DefaultDeveloperName: string := "jt-plug"
  const DefaultDeveloperEmail: string := "zhengyaoting1211@gmail.com"

  datatype Developer = Developer(id: string, name: string, email: string)

  /** `if (value.isNotEmpty()) value else fallback`, with an absent property read as "". */
  function OrDefault(configured: Option<string>, fallback: string): (r: string)
    ensures r == fallback <==> configured.None? || |configured.value| == 0 || configured.value == fallback
    ensures configured.Some? && |configured.value| > 0 ==> r == configured.value
  {
    var value := configured.GetOr("");
    if |value| > 0 then value else fallback
  }

  function DeveloperOf(props: Props): (dev: Developer)
    ensures dev.id == OrDefault(Find(props, "mavenCentral.developer.id"), DefaultDeveloperId)
    ensures dev.name == OrDefault(Find(props, "mavenCentral.developer.name"), DefaultDeveloperName)
    ensures dev.email == OrDefault(Find(props, "mavenCentral.developer.email"), DefaultDeveloperEmail)
    ensures |dev.id| > 0 && |dev.name| > 0 && |dev.email| > 0
  {
    Developer(
      OrDefault(Find(props, "mavenCentral.developer.id"), DefaultDeveloperId),
      OrDefault(Find(props, "mavenCentral.developer.name"), DefaultDeveloperName),
      OrDefault(Find(props, "mavenCentral.developer.email"), DefaultDeveloperEmail))
  }

  // ---------------------------------------------------------------------------
  // Signing

  datatype SigningDecision =
    | SignWithGpg(keyId: string)   // `signing { useGpgCmd(); sign(...) }`
    | WarnDisabled                 // signing switched off by the property
    | WarnUnconfigured             // no key id configured

  /** `signing.enabled` is true unless the property is exactly "false". */
  predicate SigningEnabled(props: Props) {
    Find(props, "mavenCentral.signing.enabled") != Some("false")
  }

  function SigningOf(props: Props): (r: SigningDecision)
    ensures r.SignWithGpg? <==> "mavenCentral.signing.keyId" in props && SigningEnabled(props)
    ensures r.SignWithGpg? ==> r.keyId == props["mavenCentral.signing.keyId"]
    ensures r == WarnDisabled <==> !SigningEnabled(props)
    ensures r == WarnUnconfigured <==> "mavenCentral.signing.keyId" !in props && SigningEnabled(props)
  {
    var keyId := Find(props, "mavenCentral.signing.keyId");
    if keyId.Some? && SigningEnabled(props) then SignWithGpg(keyId.value)
    else if !SigningEnabled(props) then WarnDisabled
    else WarnUnconfigured
  }

  /** Any value other than "false" (even "no" or "") leaves signing on. */
  lemma OnlyFalseDisables(props: Props, value: string)
    requires value != "false"
    ensures SigningEnabled(props["mavenCentral.signing.enabled" := value])
  {
  }

  /** With a key id but signing disabled, the "disabled" warning is the one
      given. */
  lemma DisabledTakesPrecedence(props: Props)
    requires "mavenCentral.signing.keyId" in props
    requires Find(props, "mavenCentral.signing.enabled") == Some("false")
    ensures SigningOf(props) == WarnDisabled
  {
  }
}

=== FILE: portal.dfy ===
/** The calls to the publishing portal: `uploadToCentral`, and the three tasks
    that act on a deployment (`checkCentralStatus`, `publishCentralDeployment`,
    `dropCentralDeployment`). Each call is one `curl` process; the model sees
    only the argument list handed to it and the `(exit code, stdout, stderr)`
    it leaves, through the `curl` parameter. The deployment id file
    (`build/central-bundle/deployment-id.txt`) is an `Option<string>`: `None`
    when it does not exist. */
module Portal {
  import opened Wrappers
  import opened Text
  import opened Settings
  import opened Auth

  const DefaultApiBaseUrl: string := "https://central.sonatype.com/api/v1/publisher"
  const DefaultPublishingType: string := "USER_MANAGED"

  datatype PortalConfig = PortalConfig(
    apiBaseUrl: string,
    credentials: Credentials,
    publishingType: string,
    deploymentName: Option<string>)

  /** The portal settings: the API base URL and the publishing type have
      defaults, the deployment name has none. */
  function PortalConfigOf(props: Props): (cfg: PortalConfig)
    ensures cfg.apiBaseUrl == (if "mavenCentral.apiBaseUrl" in props then props["mavenCentral.apiBaseUrl"] else DefaultApiBaseUrl)
    ensures cfg.publishingType
            == (if "mavenCentral.publishingType" in props then props["mavenCentral.publishingType"] else DefaultPublishingType)
    ensures cfg.deploymentName.Some? <==> "mavenCentral.deploymentName" in props
    ensures cfg.deploymentName.Some? ==> cfg.deploymentName.value == props["mavenCentral.deploymentName"]
    ensures cfg.credentials == CredentialsOf(props)
  {
    PortalConfig(
      Find(props, "mavenCentral.apiBaseUrl").GetOr(DefaultApiBaseUrl),
      CredentialsOf(props),
      Find(props, "mavenCentral.publishingType").GetOr(DefaultPublishingType),
      Find(props, "mavenCentral.deploymentName"))
  }

  /** What a finished `curl` process leaves behind. */
  datatype ProcessResult = ProcessResult(exitCode: int, stdout: string, stderr: string)

  datatype Operation = Upload | CheckStatus | Publish | Drop

  datatype PortalError =
    | BundleMissing(path: string)
    | AuthFailed(cause: AuthError)
    | NoDeploymentId
    | TransportFailed(op: Operation, stderr: string)

  /** The text of the exception a failed `curl` call raises: a fixed prefix per
      task followed by the captured error stream. */
  function TransportPrefix(op: Operation): string {
    match op
    case Upload => "上传失败: "
    case CheckStatus => "检查状态失败: "
    case Publish => "发布失败: "
    case Drop => "删除失败: "
  }

  function TransportMessage(op: Operation, stderr: string): (m: string)
    ensures StartsWith(m, TransportPrefix(op)) && EndsWith(m, stderr)
    ensures |m| == |TransportPrefix(op)| + |stderr|
  {
    StartsWithAppend(TransportPrefix(op), stderr);
    EndsWithAppend(TransportPrefix(op), stderr);
    TransportPrefix(op) + stderr
  }

  /** The message tells the four tasks apart: their prefixes begin with
      different characters, whatever the error streams hold. */
  lemma TransportMessageNamesOperation(op1: Operation, op2: Operation, stderr1: string, stderr2: string)
    requires op1 != op2
    ensures TransportMessage(op1, stderr1) != TransportMessage(op2, stderr2)
  {
    var m1 := TransportMessage(op1, stderr1);
    var m2 := TransportMessage(op2, stderr2);
    PrefixLead(op1);
    PrefixLead(op2);
    assert Lead(op1) != Lead(op2);
    assert m1[0] == Lead(op1) && m2[0] == Lead(op2);
  }

  /** The character each prefix opens with; no two operations share one. */
  function Lead(op: Operation): char {
    match op
    case Upload => '上'
    case CheckStatus => '检'
    case Publish => '发'
    case Drop => '删'
  }

  lemma PrefixLead(op: Operation)
    ensures |TransportPrefix(op)| > 0 && TransportPrefix(op)[0] == Lead(op)
  {
    match op
    case Upload => assert TransportPrefix(op)[0] == '上';
    case CheckStatus => assert TransportPrefix(op)[0] == '检';
    case Publish => assert TransportPrefix(op)[0] == '发';
    case Drop => assert TransportPrefix(op)[0] == '删';
  }

  /** The message always carries the error stream verbatim. */
  lemma TransportMessageCarriesStderr(op: Operation, stderr: string)
    ensures Contains(TransportMessage(op, stderr), stderr)
  {
    ContainsSuffix(TransportPrefix(op), stderr);
  }

  // ---------------------------------------------------------------------------
  // Upload

  /** The values given to `--form` options, in order. */
  function FormFields(cmd: seq<string>): seq<string>
    decreases |cmd|
  {
    if |cmd| < 2 then []
    else if cmd[0] == "--form" then [cmd[1]] + FormFields(cmd[2..])
    else FormFields(cmd[1..])
  }

  function UploadUrl(cfg: PortalConfig): (url: string)
    ensures StartsWith(url, cfg.apiBaseUrl) && url[|cfg.apiBaseUrl|..] == "/upload"
  {
    StartsWithAppend(cfg.apiBaseUrl, "/upload");
    cfg.apiBaseUrl + "/upload"
  }

  /** The `curl` argument list of the upload. */
  function UploadCommand(authHeader: string, bundlePath: string, publishingType: string,
                         deploymentName: Option<string>, url: string): (cmd: seq<string>)
    ensures |cmd| >= 2 && cmd[0] == "curl" && cmd[|cmd| - 1] == url
    ensures "Authorization: " + authHeader in cmd
  {
    var fixed := ["curl",
                  "--request", "POST",
                  "--header", "Authorization: " + authHeader,
                  "--form", "bundle=@" + bundlePath,
                  "--form", "publishingType=" + publishingType];
    var named := if deploymentName.Some? then fixed + ["--form", "name=" + deploymentName.value] else fixed;
    assert named[4] == "Authorization: " + authHeader;
    named + [url]
  }

  lemma FormFieldsSkip(x: string, rest: seq<string>)
    requires x != "--form" && |rest| >= 1
    ensures FormFields([x] + rest) == FormFields(rest)
  {
    assert ([x] + rest)[1..] == rest;
  }

  lemma FormFieldsTake(v: string, rest: seq<string>)
    ensures FormFields(["--form", v] + rest) == [v] + FormFields(rest)
  {
    assert (["--form", v] + rest)[2..] == rest;
  }

  /** The arguments after the publishing type: the optional name field, then the URL. */
  function UploadTail(deploymentName: Option<string>, url: string): seq<string> {
    if deploymentName.Some? then ["--form", "name=" + deploymentName.value, url] else [url]
  }

  lemma UploadCommandShape(authHeader: string, bundlePath: string, publishingType: string,
                           deploymentName: Option<string>, url: string)
    ensures UploadCommand(authHeader, bundlePath, publishingType, deploymentName, url)
            == ["curl"] + (["--request"] + (["POST"] + (["--header"] + (["Authorization: " + authHeader]
               + (["--form", "bundle=@" + bundlePath] + (["--form", "publishingType=" + publishingType]
               + UploadTail(deploymentName, url)))))))
  {
  }

  lemma TailFields(deploymentName: Option<string>, url: string)
    ensures FormFields(UploadTail(deploymentName, url))
            == (if deploymentName.Some? then ["name=" + deploymentName.value] else [])
  {
    if deploymentName.Some? {
      FormFieldsTake("name=" + deploymentName.value, [url]);
      assert UploadTail(deploymentName, url) == ["--form", "name=" + deploymentName.value] + [url];
    }
  }

  /** The multipart fields of the upload are the bundle, the publishing type
      and, exactly when a deployment name is configured (even an empty one),
      the name. */
  lemma UploadFormFields(authHeader: string, bundlePath: string, publishingType: string,
                         deploymentName: Option<string>, url: string)
    ensures FormFields(UploadCommand(authHeader, bundlePath, publishingType, deploymentName, url))
            == ["bundle=@" + bundlePath, "publishingType=" + publishingType]
               + (if deploymentName.Some? then ["name=" + deploymentName.value] else [])
  {
    var h := "Authorization: " + authHeader;
    assert h[0] == 'A';
    var b := "bundle=@" + bundlePath;
    var t := "publishingType=" + publishingType;
    var tail := UploadTail(deploymentName, url);
    TailFields(deploymentName, url);
    var fromT := ["--form", t] + tail;
    FormFieldsTake(t, tail);
    var fromB := ["--form", b] + fromT;
    FormFieldsTake(b, fromT);
    var fromH := [h] + fromB;
    FormFieldsSkip(h, fromB);
    var fromHeader := ["--header"] + fromH;
    FormFieldsSkip("--header", fromH);
    var fromPost := ["POST"] + fromHeader;
    FormFieldsSkip("POST", fromHeader);
    var fromRequest := ["--request"] + fromPost;
    FormFieldsSkip("--request", fromPost);
    calc {
      FormFields(UploadCommand(authHeader, bundlePath, publishingType, deploymentName, url));
      { UploadCommandShape(authHeader, bundlePath, publishingType, deploymentName, url); }
      FormFields(["curl"] + fromRequest);
      { FormFieldsSkip("curl", fromRequest); }
      FormFields(fromRequest);
    }
  }

  /** A field of that list names the deployment exactly when a name is configured. */
  lemma NameFieldIffConfigured(authHeader: string, bundlePath: string, publishingType: string,
                               deploymentName: Option<string>, url: string)
    ensures (exists f :: f in FormFields(UploadCommand(authHeader, bundlePath, publishingType, deploymentName, url))
                         && StartsWith(f, "name="))
            <==> deploymentName.Some?
  {
    UploadFormFields(authHeader, bundlePath, publishingType, deploymentName, url);
    var b := "bundle=@" + bundlePath;
    var t := "publishingType=" + publishingType;
    assert b[0] == 'b' && t[0] == 'p';
    if deploymentName.Some? {
      StartsWithAppend("name=", deploymentName.value);
    }
  }

  /** How an upload ended, and the deployment id file afterwards. */
  datatype UploadOutcome = UploadOutcome(idFile: Option<string>, result: Result<string, PortalError>)

  /** `uploadToCentral`: checks the bundle exists, computes the header, runs
      `curl`, and on exit code 0 stores the trimmed response as the
      deployment id. */
  function UploadToCentral(cfg: PortalConfig, bundlePath: string, bundleExists: bool, idFile: Option<string>,
                           base64: string -> string, curl: seq<string> -> ProcessResult): (u: UploadOutcome)
    ensures u.result.Failure? ==> u.idFile == idFile
    ensures !bundleExists ==> u.result == Failure(BundleMissing(bundlePath))
    ensures bundleExists && AuthHeader(cfg.credentials, base64).Failure? ==> u.result == Failure(AuthFailed(AuthNotConfigured))
    ensures u.result.Success? ==>
              && bundleExists
              && AuthHeader(cfg.credentials, base64).Success?
              && var cmd := UploadCommand(AuthHeader(cfg.credentials, base64).value, bundlePath,
                                          cfg.publishingType, cfg.deploymentName, UploadUrl(cfg));
                 curl(cmd).exitCode == 0 && u.result.value == Trim(curl(cmd).stdout) && u.idFile == Some(u.result.value)
    ensures bundleExists && AuthHeader(cfg.credentials, base64).Success? ==>
              var cmd := UploadCommand(AuthHeader(cfg.credentials, base64).value, bundlePath,
                                       cfg.publishingType, cfg.deploymentName, UploadUrl(cfg));
              && (curl(cmd).exitCode != 0 <==> u.result == Failure(TransportFailed(Upload, curl(cmd).stderr)))
              && (curl(cmd).exitCode == 0 <==> u.result.Success?)
              && (curl(cmd).exitCode == 0 ==> u.idFile == Some(Trim(curl(cmd).stdout)))
  {
    if !bundleExists then UploadOutcome(idFile, Failure(BundleMissing(bundlePath)))
    else
      match AuthHeader(cfg.credentials, base64)
      case Failure(e) => UploadOutcome(idFile, Failure(AuthFailed(e)))
      case Success(header) =>
        var reply := curl(UploadCommand(header, bundlePath, cfg.publishingType, cfg.deploymentName, UploadUrl(cfg)));
        if reply.exitCode != 0 then UploadOutcome(idFile, Failure(TransportFailed(Upload, reply.stderr)))
        else
          var id := Trim(reply.stdout);
          UploadOutcome(Some(id), Success(id))
  }

  /** An upload rejected with exit code 1 and `401 unauthorized` on the error
      stream fails with that text in its message and leaves the id file as it
      was. */
  lemma UnauthorizedUploadLeavesIdFile(cfg: PortalConfig, bundlePath: string, idFile: Option<string>,
                                       base64: string -> string, curl: seq<string> -> ProcessResult)
    requires AuthHeader(cfg.credentials, base64).Success?
    requires forall cmd :: curl(cmd) == ProcessResult(1, "", "401 unauthorized")
    ensures var u := UploadToCentral(cfg, bundlePath, true, idFile, base64, curl);
            && u.idFile == idFile
            && u.result == Failure(TransportFailed(Upload, "401 unauthorized"))
            && Contains(TransportMessage(Upload, "401 unauthorized"), "401 unauthorized")
  {
    TransportMessageCarriesStderr(Upload, "401 unauthorized");
  }

  // ---------------------------------------------------------------------------
  // Deployment id

  const DeploymentIdProperty: string := "deploymentId"

  /** An explicit `-PdeploymentId` wins and is used as given; otherwise the id
      file's content, trimmed; otherwise the task stops. */
  function ResolveDeploymentId(props: Props, idFile: Option<string>): (r: Result<string, PortalError>)
    ensures r.Success? <==> DeploymentIdProperty in props || idFile.Some?
    ensures r.Failure? ==> r.error == NoDeploymentId
    ensures DeploymentIdProperty in props ==> r.value == props[DeploymentIdProperty]
    ensures DeploymentIdProperty !in props && idFile.Some? ==>
              IsTrimOf(r.value, idFile.value)
  {
    if DeploymentIdProperty in props then Success(props[DeploymentIdProperty])
    else if idFile.Some? then Success(Trim(idFile.value))
    else Failure(NoDeploymentId)
  }

  /** The id stored by a successful upload is read back unchanged by a later
      task run without an explicit id: the stored text is already trimmed. */
  lemma UploadThenResolve(cfg: PortalConfig, bundlePath: string, bundleExists: bool, idFile: Option<string>,
                          base64: string -> string, curl: seq<string> -> ProcessResult, props: Props)
    requires UploadToCentral(cfg, bundlePath, bundleExists, idFile, base64, curl).result.Success?
    requires DeploymentIdProperty !in props
    ensures var u := UploadToCentral(cfg, bundlePath, bundleExists, idFile, base64, curl);
            ResolveDeploymentId(props, u.idFile) == u.result
  {
    var u := UploadToCentral(cfg, bundlePath, bundleExists, idFile, base64, curl);
    var header := AuthHeader(cfg.credentials, base64).value;
    var reply := curl(UploadCommand(header, bundlePath, cfg.publishingType, cfg.deploymentName, UploadUrl(cfg)));
    TrimIdempotent(reply.stdout);
  }

  // ---------------------------------------------------------------------------
  // Status, publish, drop

  predicate IsDeploymentAction(op: Operation) {
    !op.Upload?
  }

  /** `$apiBaseUrl/status?id=$id` for a status query, `$apiBaseUrl/deployment/$id`
      for publishing and dropping. */
  function ActionUrl(op: Operation, apiBaseUrl: string, id: string): (url: string)
    requires IsDeploymentAction(op)
    ensures op == CheckStatus ==>
              StartsWith(url, apiBaseUrl + "/status?id=") && url[|apiBaseUrl| + |"/status?id="|..] == id
    ensures op != CheckStatus ==>
              StartsWith(url, apiBaseUrl + "/deployment/") && url[|apiBaseUrl| + |"/deployment/"|..] == id
  {
    StartsWithAppend(apiBaseUrl + "/status?id=", id);
    StartsWithAppend(apiBaseUrl + "/deployment/", id);
    if op == CheckStatus then apiBaseUrl + "/status?id=" + id
    else apiBaseUrl + "/deployment/" + id
  }

  /** The `curl` argument list of a deployment action. */
  function ActionCommand(op: Operation, authHeader: string, url: string): (cmd: seq<string>)
    requires IsDeploymentAction(op)
    ensures |cmd| >= 5 && cmd[0] == "curl" && cmd[1] == "--request" && cmd[|cmd| - 1] == url
    ensures cmd[2] == (if op == Drop then "DELETE" else "POST")
    ensures cmd[3] == "--header" && cmd[4] == "Authorization: " + authHeader
  {
    var verb := if op == Drop then "DELETE" else "POST";
    var head := ["curl", "--request", verb, "--header", "Authorization: " + authHeader];
    if op == CheckStatus then head + ["--header", "Accept: application/json", url]
    else head + ["--verbose", url]
  }

  /** Publishing and dropping address the same resource with different verbs. */
  lemma PublishAndDropShareResource(apiBaseUrl: string, id: string, authHeader: string)
    ensures ActionUrl(Publish, apiBaseUrl, id) == ActionUrl(Drop, apiBaseUrl, id)
    ensures var p := ActionCommand(Publish, authHeader, ActionUrl(Publish, apiBaseUrl, id));
            var d := ActionCommand(Drop, authHeader, ActionUrl(Drop, apiBaseUrl, id));
            |p| == |d| && p[2] == "POST" && d[2] == "DELETE" && p[..2] == d[..2] && p[3..] == d[3..]
  {
  }

  /** One deployment action: resolve the id, compute the header, run `curl`.
      The response text is the result; jq's optional reformatting of a status
      response is not modelled. */
  function RunAction(op: Operation, cfg: PortalConfig, props: Props, idFile: Option<string>,
                     base64: string -> string, curl: seq<string> -> ProcessResult): (r: Result<string, PortalError>)
    requires IsDeploymentAction(op)
    ensures ResolveDeploymentId(props, idFile).Failure? ==> r == Failure(NoDeploymentId)
    ensures ResolveDeploymentId(props, idFile).Success? && AuthHeader(cfg.credentials, base64).Failure? ==>
              r == Failure(AuthFailed(AuthNotConfigured))
    ensures r.Success? ==>
              && ResolveDeploymentId(props, idFile).Success?
              && AuthHeader(cfg.credentials, base64).Success?
              && var cmd := ActionCommand(op, AuthHeader(cfg.credentials, base64).value,
                                          ActionUrl(op, cfg.apiBaseUrl, ResolveDeploymentId(props, idFile).value));
                 curl(cmd).exitCode == 0 && r.value == curl(cmd).stdout
    ensures ResolveDeploymentId(props, idFile).Success? && AuthHeader(cfg.credentials, base64).Success? ==>
              var cmd := ActionCommand(op, AuthHeader(cfg.credentials, base64).value,
                                       ActionUrl(op, cfg.apiBaseUrl, ResolveDeploymentId(props, idFile).value));
              && (curl(cmd).exitCode == 0 <==> r.Success?)
              && (curl(cmd).exitCode == 0 ==> r == Success(curl(cmd).stdout))
              && (curl(cmd).exitCode != 0 ==> r == Failure(TransportFailed(op, curl(cmd).stderr)))
    ensures r.Failure? && r.error.TransportFailed? ==> r.error.op == op
  {
    var id :- ResolveDeploymentId(props, idFile);
    match AuthHeader(cfg.credentials, base64)
    case Failure(e) => Failure(AuthFailed(e))
    case Success(header) =>
      var reply := curl(ActionCommand(op, header, ActionUrl(op, cfg.apiBaseUrl, id)));
      if reply.exitCode != 0 then Failure(TransportFailed(op, reply.stderr))
      else Success(reply.stdout)
  }

  /** The three precedence cases of id resolution as seen by an action: the
      explicit id is used untrimmed even when an id file exists, the file is
      used otherwise, and with neither nothing is sent. */
  lemma ActionIdPrecedence(op: Operation, cfg: PortalConfig, props: Props, idFile: Option<string>,
                           base64: string -> string, curl: seq<string> -> ProcessResult)
    requires IsDeploymentAction(op) && AuthHeader(cfg.credentials, base64).Success?
    ensures var header := AuthHeader(cfg.credentials, base64).value;
            && (DeploymentIdProperty in props ==>
                  RunAction(op, cfg, props, idFile, base64, curl)
                  == RunAction(op, cfg, props, None, base64, curl))
            && (DeploymentIdProperty !in props && idFile.Some? ==>
                  var reply := curl(ActionCommand(op, header, ActionUrl(op, cfg.apiBaseUrl, Trim(idFile.value))));
                  RunAction(op, cfg, props, idFile, base64, curl)
                  == (if reply.exitCode != 0 then Failure(TransportFailed(op, reply.stderr)) else Success(reply.stdout)))
            && (DeploymentIdProperty !in props && idFile.None? ==>
                  RunAction(op, cfg, props, idFile, base64, curl) == Failure(NoDeploymentId))
  {
  }
}

=== FILE: settings.dfy ===
/** The Gradle project properties the scripts read (`gradle.properties` or
    `-P` flags), and the artifact coordinate both scripts derive from them. */
module Settings {
  import opened Wrappers

  /** Project properties by name; every value is a string. */
  type Props = map<string, string>

  /** `project.findProperty(key) as String?` */
  function Find(props: Props, key: string): Option<string> {
    if key in props then Some(props[key]) else None
  }

  /** The coordinate of the published library. */
  datatype Coordinate = Coordinate(groupId: string, artifactId: string, version: string)

  const DefaultGroupId: string := "io.github.jt-plug"
  const DefaultArtifactId: string := "joytalk"
  const DefaultVersion: string := "1.0.0"

  /** `mavenCentral.groupId`, `.artifactId` and `.version`, each with its default. */
  function CoordinateOf(props: Props): (c: Coordinate)
    ensures c.groupId == (if "mavenCentral.groupId" in props then props["mavenCentral.groupId"] else DefaultGroupId)
    ensures c.artifactId == (if "mavenCentral.artifactId" in props then props["mavenCentral.artifactId"] else DefaultArtifactId)
    ensures c.version == (if "mavenCentral.version" in props then props["mavenCentral.version"] else DefaultVersion)
  {
    Coordinate(
      Find(props, "mavenCentral.groupId").GetOr(DefaultGroupId),
      Find(props, "mavenCentral.artifactId").GetOr(DefaultArtifactId),
      Find(props, "mavenCentral.version").GetOr(DefaultVersion))
  }
}

=== FILE: staging.dfy ===
/** `prepareCentralBundle`: builds the staging directory for one coordinate
    from the local Maven repository directory of that coordinate. The staging
    directory is emptied first; then every regular file whose name selects it
    is copied, artifacts with freshly generated `.md5` and `.sha1` side-cars,
    signatures verbatim, and checksum files from the source are dropped.
    Finally the three mandatory files are checked.

    Directories are maps from file name to bytes. MD5 and SHA-1 are
    parameters: the model never looks inside a digest. */
module Staging {
  import opened Wrappers
  import opened Text
  import opened Hex
  import opened Settings

  /** An entry of the artifact directory: only regular files are staged. */
  datatype Entry = Regular(content: seq<Byte>) | Directory

  type Listing = map<string, Entry>

  /** The files of a directory, by name. */
  type Dir = map<string, seq<Byte>>

  /** `MessageDigest.getInstance("MD5")` and `("SHA-1")`, applied to a file's bytes. */
  datatype Digests = Digests(md5: seq<Byte> -> seq<Byte>, sha1: seq<Byte> -> seq<Byte>)

  const Md5Suffix: string := ".md5"
  const Sha1Suffix: string := ".sha1"
  const SignatureSuffix: string := ".asc"

  /** `$artifactId-$version`, the prefix every file of the release carries. */
  function BaseName(c: Coordinate): string {
    c.artifactId + "-" + c.version
  }

  // ---------------------------------------------------------------------------
  // Selection

  predicate IsCurrentVersion(name: string, c: Coordinate) {
    StartsWith(name, BaseName(c))
    || name == BaseName(c) + ".module"
    || name == BaseName(c) + ".module.asc"
  }

  predicate IsOldVersion(name: string, c: Coordinate) {
    Contains(name, "-" + c.artifactId + "-")
    && !StartsWith(name, BaseName(c))
    && name != BaseName(c) + ".module"
    && name != BaseName(c) + ".module.asc"
  }

  /** The guard of the copy loop: current version and not an old version. */
  predicate Selected(name: string, c: Coordinate) {
    IsCurrentVersion(name, c) && !IsOldVersion(name, c)
  }

  /** The old-version guard never rejects a name the current-version test
      accepts, and the two exact module names already carry the prefix: a file
      is selected exactly when its name starts with `artifactId-version`. */
  lemma SelectedIffPrefix(name: string, c: Coordinate)
    ensures Selected(name, c) <==> StartsWith(name, BaseName(c))
    ensures IsCurrentVersion(name, c) ==> !IsOldVersion(name, c)
  {
    StartsWithAppend(BaseName(c), ".module");
    StartsWithAppend(BaseName(c), ".module.asc");
  }

  /** A file of a later version whose name extends the base name is selected:
      for version `1.0.0`, `joytalk-1.0.0.1.pom` is staged. */
  lemma PrefixCollisionSelected()
    ensures Selected("joytalk-1.0.0.1.pom", Coordinate(DefaultGroupId, DefaultArtifactId, DefaultVersion))
  {
    var c := Coordinate(DefaultGroupId, DefaultArtifactId, DefaultVersion);
    assert "joytalk-1.0.0.1.pom" == BaseName(c) + ".1.pom";
    SelectedIffPrefix("joytalk-1.0.0.1.pom", c);
    StartsWithAppend(BaseName(c), ".1.pom");
  }

  // ---------------------------------------------------------------------------
  // What happens to one source file

  datatype Treatment =
    | WithChecksums   // copied, plus generated `.md5` and `.sha1` side-cars
    | Verbatim        // a signature: copied as is
    | Dropped         // not selected, not a regular file, or a checksum file

  function TreatmentOf(name: string, entry: Entry, c: Coordinate): Treatment {
    if entry.Regular? && Selected(name, c) then
      if !EndsWith(name, Md5Suffix) && !EndsWith(name, Sha1Suffix) && !EndsWith(name, SignatureSuffix) then
        WithChecksums
      else if EndsWith(name, SignatureSuffix) then Verbatim
      else Dropped
    else Dropped
  }

  /** The writes the loop body performs for one source file. */
  function Writes(name: string, entry: Entry, c: Coordinate, d: Digests): Dir {
    match TreatmentOf(name, entry, c)
    case WithChecksums =>
      map[name := entry.content,
          name + Md5Suffix := ChecksumFile(d.md5(entry.content)),
          name + Sha1Suffix := ChecksumFile(d.sha1(entry.content))]
    case Verbatim => map[name := entry.content]
    case Dropped => map[]
  }

  /** A name ending in `.md5` or `.sha1` is never copied itself. */
  lemma ChecksumNameDropped(name: string, entry: Entry, c: Coordinate)
    requires EndsWith(name, Md5Suffix) || EndsWith(name, Sha1Suffix)
    ensures TreatmentOf(name, entry, c) == Dropped
  {
    assert name[|name| - 1] == '5' || name[|name| - 1] == '1';
  }

  /** The name `k` ends in `suffix`, and what precedes it. */
  function Stem(k: string, suffix: string): string
    requires EndsWith(k, suffix)
  {
    k[..|k| - |suffix|]
  }

  lemma StemOfAppend(n: string, suffix: string)
    ensures EndsWith(n + suffix, suffix) && Stem(n + suffix, suffix) == n
  {
    EndsWithAppend(n, suffix);
    assert (n + suffix)[..|n|] == n;
  }

  lemma StemThenSuffix(k: string, suffix: string)
    requires EndsWith(k, suffix)
    ensures Stem(k, suffix) + suffix == k
  {
  }

  // ---------------------------------------------------------------------------
  // The staging directory, described declaratively

  /** `k` in the staging directory is accounted for by a source file among
      `names`: the file itself, or one of its two side-cars. */
  ghost predicate HasOrigin(k: string, src: Listing, c: Coordinate, names: set<string>) {
    (k in names && k in src && TreatmentOf(k, src[k], c) != Dropped)
    || (EndsWith(k, Md5Suffix) && Stem(k, Md5Suffix) in names && Stem(k, Md5Suffix) in src
        && TreatmentOf(Stem(k, Md5Suffix), src[Stem(k, Md5Suffix)], c) == WithChecksums)
    || (EndsWith(k, Sha1Suffix) && Stem(k, Sha1Suffix) in names && Stem(k, Sha1Suffix) in src
        && TreatmentOf(Stem(k, Sha1Suffix), src[Stem(k, Sha1Suffix)], c) == WithChecksums)
  }

  /** `staged` holds exactly what processing the source files among `names`
      produces: every kept file with its bytes, both side-cars of every
      artifact with the hexadecimal text of its digests, and nothing else. */
  ghost predicate StagedFrom(staged: Dir, src: Listing, c: Coordinate, d: Digests, names: set<string>) {
    KeptFilesCopied(staged, src, c, names)
    && SidecarsWritten(staged, src, c, d, names)
    && AllAccountedFor(staged, src, c, names)
  }

  ghost predicate KeptFilesCopied(staged: Dir, src: Listing, c: Coordinate, names: set<string>) {
    forall n :: n in names && n in src && TreatmentOf(n, src[n], c) != Dropped ==>
      n in staged && staged[n] == src[n].content
  }

  ghost predicate SidecarsWritten(staged: Dir, src: Listing, c: Coordinate, d: Digests, names: set<string>) {
    forall n :: n in names && n in src && TreatmentOf(n, src[n], c) == WithChecksums ==>
      && n + Md5Suffix in staged && staged[n + Md5Suffix] == ChecksumFile(d.md5(src[n].content))
      && n + Sha1Suffix in staged && staged[n + Sha1Suffix] == ChecksumFile(d.sha1(src[n].content))
  }

  ghost predicate AllAccountedFor(staged: Dir, src: Listing, c: Coordinate, names: set<string>) {
    forall k :: k in staged ==> HasOrigin(k, src, c, names)
  }

  /** The description determines the directory. */
  lemma StagedFromUnique(m1: Dir, m2: Dir, src: Listing, c: Coordinate, d: Digests, names: set<string>)
    requires StagedFrom(m1, src, c, d, names) && StagedFrom(m2, src, c, d, names)
    ensures m1 == m2
  {
    forall k | k in m1 ensures k in m2 && m2[k] == m1[k] {
      SameAtOrigin(k, m1, m2, src, c, d, names);
    }
    forall k | k in m2 ensures k in m1 {
      SameAtOrigin(k, m2, m1, src, c, d, names);
    }
  }

  lemma SameAtOrigin(k: string, m1: Dir, m2: Dir, src: Listing, c: Coordinate, d: Digests, names: set<string>)
    requires StagedFrom(m1, src, c, d, names) && StagedFrom(m2, src, c, d, names)
    requires k in m1
    ensures k in m2 && m2[k] == m1[k]
  {
    assert HasOrigin(k, src, c, names);
    if k in names && k in src && TreatmentOf(k, src[k], c) != Dropped {
    } else if EndsWith(k, Md5Suffix) && Stem(k, Md5Suffix) in names && Stem(k, Md5Suffix) in src
              && TreatmentOf(Stem(k, Md5Suffix), src[Stem(k, Md5Suffix)], c) == WithChecksums {
      StemThenSuffix(k, Md5Suffix);
    } else {
      StemThenSuffix(k, Sha1Suffix);
    }
  }

  // ---------------------------------------------------------------------------
  // The copy loop, in listing order

  /** `File.listFiles()` order is unspecified; `order` is one enumeration of the
      artifact directory. */
  predicate Enumerates(order: seq<string>, src: Listing) {
    (forall i :: 0 <= i < |order| ==> order[i] in src)
    && (forall n :: n in src ==> n in order)
  }

  function NamesOf(order: seq<string>): (s: set<string>)
    ensures forall n :: n in s <==> n in order
  {
    set i | 0 <= i < |order| :: order[i]
  }

  /** The staging directory after the loop has processed `order`, starting from
      the emptied directory; later writes replace earlier ones. */
  function StageInOrder(order: seq<string>, src: Listing, c: Coordinate, d: Digests): Dir
    requires forall i :: 0 <= i < |order| ==> order[i] in src
  {
    if |order| == 0 then map[]
    else
      var n := order[|order| - 1];
      StageInOrder(order[..|order| - 1], src, c, d) + Writes(n, src[n], c, d)
  }

  /** Whatever the listing order, the loop produces the described directory:
      no write of one source file ever lands on a name another file owns. */
  lemma {:induction false} StageInOrderSound(order: seq<string>, src: Listing, c: Coordinate, d: Digests)
    requires forall i :: 0 <= i < |order| ==> order[i] in src
    ensures StagedFrom(StageInOrder(order, src, c, d), src, c, d, NamesOf(order))
  {
    if |order| > 0 {
      var init := order[..|order| - 1];
      var n := order[|order| - 1];
      StageInOrderSound(init, src, c, d);
      assert NamesOf(order) == NamesOf(init) + {n} by {
        assert order == init + [n];
      }
      StageStep(StageInOrder(init, src, c, d), src, c, d, NamesOf(init), n);
    }
  }

  /** Adding the writes of one more source file extends the description. */
  lemma StageStep(prev: Dir, src: Listing, c: Coordinate, d: Digests, names: set<string>, n: string)
    requires n in src
    requires StagedFrom(prev, src, c, d, names)
    ensures StagedFrom(prev + Writes(n, src[n], c, d), src, c, d, names + {n})
  {
    StepKeepsCopies(prev, src, c, d, names, n);
    StepKeepsSidecars(prev, src, c, d, names, n);
    StepAccounted(prev, src, c, d, names, n);
  }

  lemma StepKeepsCopies(prev: Dir, src: Listing, c: Coordinate, d: Digests, names: set<string>, n: string)
    requires n in src
    requires KeptFilesCopied(prev, src, c, names)
    ensures KeptFilesCopied(prev + Writes(n, src[n], c, d), src, c, names + {n})
  {
    var w := Writes(n, src[n], c, d);
    var next := prev + w;
    forall m | m in names + {n} && m in src && TreatmentOf(m, src[m], c) != Dropped
      ensures m in next && next[m] == src[m].content
    {
      if m in w {
        WritesKeys(n, src, c, d, m);
        if m != n {
          ChecksumNameDropped(m, src[m], c);
        }
      }
    }
  }

  lemma StepKeepsSidecars(prev: Dir, src: Listing, c: Coordinate, d: Digests, names: set<string>, n: string)
    requires n in src
    requires SidecarsWritten(prev, src, c, d, names)
    ensures SidecarsWritten(prev + Writes(n, src[n], c, d), src, c, d, names + {n})
  {
    var w := Writes(n, src[n], c, d);
    var next := prev + w;
    forall m | m in names + {n} && m in src && TreatmentOf(m, src[m], c) == WithChecksums
      ensures m + Md5Suffix in next && next[m + Md5Suffix] == ChecksumFile(d.md5(src[m].content))
      ensures m + Sha1Suffix in next && next[m + Sha1Suffix] == ChecksumFile(d.sha1(src[m].content))
    {
      if m + Md5Suffix in w { SidecarOwner(n, m, Md5Suffix, src, c, d); }
      if m + Sha1Suffix in w { SidecarOwner(n, m, Sha1Suffix, src, c, d); }
    }
  }

  /** A side-car name of `m` written by the writes of `n` belongs to `n == m`. */
  lemma SidecarOwner(n: string, m: string, suffix: string, src: Listing, c: Coordinate, d: Digests)
    requires n in src && m in src && TreatmentOf(m, src[m], c) == WithChecksums
    requires suffix == Md5Suffix || suffix == Sha1Suffix
    requires m + suffix in Writes(n, src[n], c, d)
    ensures m == n
  {
    WritesKeys(n, src, c, d, m + suffix);
    StemOfAppend(m, suffix);
    StemOfAppend(n, Md5Suffix);
    StemOfAppend(n, Sha1Suffix);
    if m + suffix == n {
      ChecksumNameDropped(n, src[n], c);
    }
    assert (m + suffix)[|m + suffix| - 1] == suffix[|suffix| - 1];
  }

  lemma StepAccounted(prev: Dir, src: Listing, c: Coordinate, d: Digests, names: set<string>, n: string)
    requires n in src
    requires AllAccountedFor(prev, src, c, names)
    ensures AllAccountedFor(prev + Writes(n, src[n], c, d), src, c, names + {n})
  {
    var w := Writes(n, src[n], c, d);
    forall k | k in prev + w ensures HasOrigin(k, src, c, names + {n}) {
      if k in w {
        WritesKeys(n, src, c, d, k);
      } else {
        assert HasOrigin(k, src, c, names);
      }
    }
  }

  /** The value the writes for `n` put under `k`. */
  ghost function WriteValue(k: string, n: string, src: Listing, c: Coordinate, d: Digests): seq<Byte>
    requires n in src && src[n].Regular?
  {
    if k == n then src[n].content
    else if k == n + Md5Suffix then ChecksumFile(d.md5(src[n].content))
    else ChecksumFile(d.sha1(src[n].content))
  }

  /** The names the writes for `n` touch, each accounted for by `n`. */
  lemma WritesKeys(n: string, src: Listing, c: Coordinate, d: Digests, k: string)
    requires n in src && k in Writes(n, src[n], c, d)
    ensures TreatmentOf(n, src[n], c) != Dropped && src[n].Regular?
    ensures k == n || (TreatmentOf(n, src[n], c) == WithChecksums && (k == n + Md5Suffix || k == n + Sha1Suffix))
    ensures HasOrigin(k, src, c, {n})
    ensures Writes(n, src[n], c, d)[k] == WriteValue(k, n, src, c, d)
  {
    StemOfAppend(n, Md5Suffix);
    StemOfAppend(n, Sha1Suffix);
  }

  // ---------------------------------------------------------------------------
  // Consequences of the description

  /** Every staged name carries the release's base name, so nothing staged for
      another version can be left over: the directory was emptied first and only
      selected files and their side-cars are written. */
  lemma StagedNamesCarryBaseName(staged: Dir, src: Listing, c: Coordinate, d: Digests, names: set<string>, k: string)
    requires StagedFrom(staged, src, c, d, names) && k in staged
    ensures StartsWith(k, BaseName(c))
  {
    assert HasOrigin(k, src, c, names);
    if k in names && k in src && TreatmentOf(k, src[k], c) != Dropped {
      SelectedIffPrefix(k, c);
    } else {
      var suffix := if EndsWith(k, Md5Suffix) && Stem(k, Md5Suffix) in names && Stem(k, Md5Suffix) in src
                       && TreatmentOf(Stem(k, Md5Suffix), src[Stem(k, Md5Suffix)], c) == WithChecksums
                    then Md5Suffix else Sha1Suffix;
      var n := Stem(k, suffix);
      SelectedIffPrefix(n, c);
      StemThenSuffix(k, suffix);
      StartsWithAppend(n, suffix);
      StartsWithTransitive(k, n, BaseName(c));
    }
  }

  /** A staged `.md5` or `.sha1` file is always a regenerated side-car: its
      bytes are the digest text of the artifact it is named after, never the
      bytes of a checksum file found in the source directory. */
  lemma ChecksumFilesRegenerated(staged: Dir, src: Listing, c: Coordinate, d: Digests, names: set<string>, k: string)
    requires StagedFrom(staged, src, c, d, names) && k in staged
    ensures EndsWith(k, Md5Suffix) ==>
              Stem(k, Md5Suffix) in src && TreatmentOf(Stem(k, Md5Suffix), src[Stem(k, Md5Suffix)], c) == WithChecksums
              && staged[k] == ChecksumFile(d.md5(src[Stem(k, Md5Suffix)].content))
    ensures EndsWith(k, Sha1Suffix) ==>
              Stem(k, Sha1Suffix) in src && TreatmentOf(Stem(k, Sha1Suffix), src[Stem(k, Sha1Suffix)], c) == WithChecksums
              && staged[k] == ChecksumFile(d.sha1(src[Stem(k, Sha1Suffix)].content))
  {
    assert HasOrigin(k, src, c, names);
    if EndsWith(k, Md5Suffix) || EndsWith(k, Sha1Suffix) {
      if k in src {
        ChecksumNameDropped(k, src[k], c);
      }
      assert k[|k| - 1] == '5' ==> !EndsWith(k, Sha1Suffix);
      if EndsWith(k, Md5Suffix) {
        StemThenSuffix(k, Md5Suffix);
      } else {
        StemThenSuffix(k, Sha1Suffix);
      }
    }
  }

  /** A signature gets no side-cars, and neither does any file that is not
      itself copied with checksums. */
  lemma NoSidecarsWithoutArtifact(staged: Dir, src: Listing, c: Coordinate, d: Digests, names: set<string>, n: string)
    requires StagedFrom(staged, src, c, d, names)
    requires n !in src || TreatmentOf(n, src[n], c) != WithChecksums
    ensures n + Md5Suffix !in staged && n + Sha1Suffix !in staged
  {
    StemOfAppend(n, Md5Suffix);
    StemOfAppend(n, Sha1Suffix);
    if n + Md5Suffix in staged {
      ChecksumFilesRegenerated(staged, src, c, d, names, n + Md5Suffix);
    }
    if n + Sha1Suffix in staged {
      ChecksumFilesRegenerated(staged, src, c, d, names, n + Sha1Suffix);
    }
  }

  // ---------------------------------------------------------------------------
  // Mandatory files

  /** The descriptor, the Android archive and the Gradle module metadata. */
  function RequiredFiles(c: Coordinate): seq<string> {
    [BaseName(c) + ".pom", BaseName(c) + ".aar", BaseName(c) + ".module"]
  }

  /** `a` is `b` with some elements left out, order kept. */
  predicate IsSubsequence(a: seq<string>, b: seq<string>)
    decreases |b|
  {
    if |a| == 0 then true
    else if |b| == 0 then false
    else if a[0] == b[0] then IsSubsequence(a[1..], b[1..])
    else IsSubsequence(a, b[1..])
  }

  /** `names.filter { it !in dir }` */
  function Absent(names: seq<string>, dir: Dir): (missing: seq<string>)
    ensures forall f :: f in missing <==> f in names && f !in dir
    ensures IsSubsequence(missing, names)
  {
    if |names| == 0 then []
    else if names[0] in dir then Absent(names[1..], dir)
    else [names[0]] + Absent(names[1..], dir)
  }

  /** Which mandatory files are missing depends only on those three names:
      no other staged file can make the check pass. */
  lemma {:induction false} AbsentOnlyLooksAtNames(names: seq<string>, d1: Dir, d2: Dir)
    requires forall f :: f in names ==> (f in d1 <==> f in d2)
    ensures Absent(names, d1) == Absent(names, d2)
  {
    if |names| > 0 {
      AbsentOnlyLooksAtNames(names[1..], d1, d2);
    }
  }

  // ---------------------------------------------------------------------------
  // The prepareCentralBundle task

  /** `groupId` with `.` turned into `/`, then `/artifactId/version`: the
      coordinate's directory under the local repository, and the path inside
      the bundle archive. */
  function ArtifactPath(c: Coordinate): (p: string)
    ensures |p| == |c.groupId| + |c.artifactId| + |c.version| + 2
    ensures '.' !in p[..|c.groupId|]
    ensures forall i :: 0 <= i < |c.groupId| && c.groupId[i] != '.' ==> p[i] == c.groupId[i]
    ensures forall i :: 0 <= i < |c.groupId| && c.groupId[i] == '.' ==> p[i] == '/'
    ensures p[|c.groupId|..] == "/" + c.artifactId + "/" + c.version
  {
    var g := ReplaceChar(c.groupId, '.', '/');
    var p := g + "/" + c.artifactId + "/" + c.version;
    assert p[..|g|] == g;
    p
  }

  lemma DefaultArtifactPath()
    ensures ArtifactPath(Coordinate(DefaultGroupId, DefaultArtifactId, DefaultVersion)) == "io/github/jt-plug/joytalk/1.0.0"
  {
    var g := ReplaceChar(DefaultGroupId, '.', '/');
    assert forall i :: 0 <= i < |g| ==> g[i] == "io/github/jt-plug"[i];
    assert g == "io/github/jt-plug";
  }

  datatype PrepareError =
    | ArtifactsNotFound(path: string)         // the coordinate's directory does not exist
    | MissingRequiredFiles(missing: seq<string>)

  /** The staging directory after `prepareCentralBundle`, and how it ended. */
  datatype Prepared = Prepared(staging: Dir, outcome: Result<(), PrepareError>)

  /** `prepareCentralBundle`. `artifactDir` is `None` when the coordinate's directory does
      not exist; `order` is the order `listFiles` returns; `staging` is what the
      staging directory held before. */
  function PrepareBundle(c: Coordinate, artifactDir: Option<Listing>, order: seq<string>, staging: Dir, d: Digests): (p: Prepared)
    requires artifactDir.Some? ==> Enumerates(order, artifactDir.value)
    ensures artifactDir.None? ==> p.staging == staging && p.outcome == Failure(ArtifactsNotFound(ArtifactPath(c)))
    ensures artifactDir.Some? ==> StagedFrom(p.staging, artifactDir.value, c, d, artifactDir.value.Keys)
    ensures artifactDir.Some? ==>
              (p.outcome.Success? <==> forall f :: f in RequiredFiles(c) ==> f in p.staging)
    ensures artifactDir.Some? && p.outcome.Failure? ==>
              p.outcome.error.MissingRequiredFiles?
              && IsSubsequence(p.outcome.error.missing, RequiredFiles(c))
              && forall f :: f in p.outcome.error.missing <==> f in RequiredFiles(c) && f !in p.staging
  {
    match artifactDir
    case None => Prepared(staging, Failure(ArtifactsNotFound(ArtifactPath(c))))
    case Some(src) =>
      var staged := StageInOrder(order, src, c, d);
      StageInOrderSound(order, src, c, d);
      assert NamesOf(order) == src.Keys;
      var missing := Absent(RequiredFiles(c), staged);
      if |missing| == 0 then
        Prepared(staged, Success(()))
      else
        assert missing[0] in RequiredFiles(c) && missing[0] !in staged;
        Prepared(staged, Failure(MissingRequiredFiles(missing)))
  }

  /** The staged directory is a function of the artifact directory alone: the
      listing order and whatever the staging directory held before make no
      difference. */
  lemma PrepareIgnoresOrderAndLeftovers(c: Coordinate, src: Listing, o1: seq<string>, o2: seq<string>, s1: Dir, s2: Dir, d: Digests)
    requires Enumerates(o1, src) && Enumerates(o2, src)
    ensures PrepareBundle(c, Some(src), o1, s1, d) == PrepareBundle(c, Some(src), o2, s2, d)
  {
    var p1 := PrepareBundle(c, Some(src), o1, s1, d);
    var p2 := PrepareBundle(c, Some(src), o2, s2, d);
    StagedFromUnique(p1.staging, p2.staging, src, c, d, src.Keys);
  }

  /** Running `prepareCentralBundle` twice gives what running it once gives. */
  lemma PrepareIdempotent(c: Coordinate, artifactDir: Option<Listing>, order: seq<string>, staging: Dir, d: Digests)
    requires artifactDir.Some? ==> Enumerates(order, artifactDir.value)
    ensures var once := PrepareBundle(c, artifactDir, order, staging, d);
            PrepareBundle(c, artifactDir, order, once.staging, d) == once
  {
  }

  /** A selected artifact is staged with its bytes and exactly two side-cars
      holding the lower-case hexadecimal text of its digests. */
  lemma StagedArtifact(c: Coordinate, src: Listing, order: seq<string>, staging: Dir, d: Digests, n: string)
    requires Enumerates(order, src) && n in src && src[n].Regular?
    requires StartsWith(n, BaseName(c))
    requires !EndsWith(n, Md5Suffix) && !EndsWith(n, Sha1Suffix) && !EndsWith(n, SignatureSuffix)
    ensures var p := PrepareBundle(c, Some(src), order, staging, d).staging;
            && n in p && p[n] == src[n].content
            && n + Md5Suffix in p && p[n + Md5Suffix] == AsciiBytes(HexOf(d.md5(src[n].content)))
            && n + Sha1Suffix in p && p[n + Sha1Suffix] == AsciiBytes(HexOf(d.sha1(src[n].content)))
  {
    SelectedIffPrefix(n, c);
    assert TreatmentOf(n, src[n], c) == WithChecksums;
  }

  /** A selected signature is staged as is, with no side-cars. */
  lemma StagedSignature(c: Coordinate, src: Listing, order: seq<string>, staging: Dir, d: Digests, n: string)
    requires Enumerates(order, src) && n in src && src[n].Regular?
    requires StartsWith(n, BaseName(c)) && EndsWith(n, SignatureSuffix)
    ensures var p := PrepareBundle(c, Some(src), order, staging, d).staging;
            n in p && p[n] == src[n].content && n + Md5Suffix !in p && n + Sha1Suffix !in p
  {
    var p := PrepareBundle(c, Some(src), order, staging, d).staging;
    SelectedIffPrefix(n, c);
    ChecksumNotSignature(n);
    assert TreatmentOf(n, src[n], c) == Verbatim;
    NoSidecarsWithoutArtifact(p, src, c, d, src.Keys, n);
  }

  lemma ChecksumNotSignature(n: string)
    requires EndsWith(n, SignatureSuffix)
    ensures !EndsWith(n, Md5Suffix) && !EndsWith(n, Sha1Suffix)
  {
    assert n[|n| - 1] == 'c';
  }

  /** A file whose name lacks the base name is not staged, whatever it is. */
  lemma OtherFilesNotStaged(c: Coordinate, src: Listing, order: seq<string>, staging: Dir, d: Digests, n: string)
    requires Enumerates(order, src)
    requires !StartsWith(n, BaseName(c))
    ensures n !in PrepareBundle(c, Some(src), order, staging, d).staging
  {
    var p := PrepareBundle(c, Some(src), order, staging, d).staging;
    if n in p {
      StagedNamesCarryBaseName(p, src, c, d, src.Keys, n);
    }
  }

  /** The zip's file name under Gradle's naming convention: the base name,
      then `-` and the version when the version is non-empty, then `.zip`
      (the bundle task sets neither an appendix nor a classifier). */
  function ArchiveFileName(baseName: string, version: string): (name: string)
    ensures StartsWith(name, baseName) && EndsWith(name, ".zip")
    ensures version != "" ==> EndsWith(name, "-" + version + ".zip")
  {
    if version == "" then
      StartsWithAppend(baseName, ".zip");
      EndsWithAppend(baseName, ".zip");
      baseName + ".zip"
    else
      var tail := "-" + version + ".zip";
      StartsWithAppend(baseName, tail);
      EndsWithAppend(baseName, tail);
      EndsWithAppend(baseName + "-" + version, ".zip");
      assert baseName + tail == baseName + "-" + version + ".zip";
      baseName + "-" + version + ".zip"
  }

  /** The bundle task's archive base name and its cleared version. */
  const BundleBaseName: string := "central-bundle"
  const BundleArchiveVersion: string := ""

  /** Clearing the archive version keeps the project version out of the file
      name: the bundle is always `central-bundle.zip`, and the version lives
      only in the entry paths inside it. */
  lemma BundleFileName()
    ensures ArchiveFileName(BundleBaseName, BundleArchiveVersion) == "central-bundle.zip"
  {
  }

  /** Any non-empty version would have changed the file name. */
  lemma VersionChangesArchiveName(baseName: string, version: string)
    requires version != ""
    ensures ArchiveFileName(baseName, version) != ArchiveFileName(baseName, "")
  {
    assert |ArchiveFileName(baseName, version)| > |ArchiveFileName(baseName, "")|;
  }

  /** The archive's entries: every staged file under `ArtifactPath(c) + "/"`. */
  function BundleEntries(c: Coordinate, staged: Dir): (entries: map<string, seq<Byte>>)
    ensures forall n :: n in staged ==> ArtifactPath(c) + "/" + n in entries && entries[ArtifactPath(c) + "/" + n] == staged[n]
    ensures forall e :: e in entries ==> StartsWith(e, ArtifactPath(c) + "/") && e[|ArtifactPath(c)| + 1..] in staged
  {
    var prefix := ArtifactPath(c) + "/";
    assert forall n :: (prefix + n)[|prefix|..] == n && StartsWith(prefix + n, prefix) by {
      forall n ensures (prefix + n)[|prefix|..] == n && StartsWith(prefix + n, prefix) {
        StartsWithAppend(prefix, n);
      }
    }
    map n | n in staged :: prefix + n := staged[n]
  }

  /** When the artifact directory holds the three mandatory files as regular
      files, the check passes, whatever else the directory holds: the
      mandatory files are never filtered out. */
  lemma RequiredSourcesSucceed(c: Coordinate, src: Listing, order: seq<string>, staging: Dir, d: Digests)
    requires Enumerates(order, src)
    requires forall f :: f in RequiredFiles(c) ==> f in src && src[f].Regular?
    ensures PrepareBundle(c, Some(src), order, staging, d).outcome.Success?
  {
    var p := PrepareBundle(c, Some(src), order, staging, d);
    forall f | f in RequiredFiles(c) ensures f in p.staging {
      var ext := f[|BaseName(c)|..];
      assert f == BaseName(c) + ext && ext in [".pom", ".aar", ".module"];
      RequiredIsArtifact(c, ext);
      StagedArtifact(c, src, order, staging, d, f);
    }
  }

  lemma RequiredIsArtifact(c: Coordinate, ext: string)
    requires ext in [".pom", ".aar", ".module"]
    ensures var f := BaseName(c) + ext;
            StartsWith(f, BaseName(c)) && !EndsWith(f, Md5Suffix) && !EndsWith(f, Sha1Suffix) && !EndsWith(f, SignatureSuffix)
  {
    var f := BaseName(c) + ext;
    StartsWithAppend(BaseName(c), ext);
    assert f[|f| - 1] == ext[|ext| - 1];
  }
}

=== FILE: text.dfy ===
/** The Kotlin string operations the build scripts rely on: prefix, suffix and
    substring tests, character and substring replacement, and `trim()`. */
module Text {

  /** `s.startsWith(prefix)` */
  predicate StartsWith(s: string, prefix: string) {
    |prefix| <= |s| && s[..|prefix|] == prefix
  }

  /** `s.endsWith(suffix)` */
  predicate EndsWith(s: string, suffix: string) {
    |suffix| <= |s| && s[|s| - |suffix|..] == suffix
  }

  /** `s.contains(t)`: `t` starts at some position of `s` (always true for an
      empty `t`). */
  predicate Contains(s: string, t: string)
    decreases |s|
  {
    StartsWith(s, t) || (|s| > 0 && Contains(s[1..], t))
  }

  lemma StartsWithAppend(s: string, t: string)
    ensures StartsWith(s + t, s)
  {
    assert (s + t)[..|s|] == s;
  }

  lemma EndsWithAppend(s: string, t: string)
    ensures EndsWith(s + t, t)
  {
    assert (s + t)[|s + t| - |t|..] == t;
  }

  /** A text contains every suffix of itself. */
  lemma {:induction false} ContainsSuffix(p: string, t: string)
    ensures Contains(p + t, t)
    decreases |p|
  {
    if |p| == 0 {
      assert p + t == t;
      StartsWithAppend(t, []);
      assert t + [] == t;
    } else {
      ContainsSuffix(p[1..], t);
      assert (p + t)[1..] == p[1..] + t;
    }
  }

  lemma StartsWithTransitive(s: string, p: string, q: string)
    requires StartsWith(s, p) && StartsWith(p, q)
    ensures StartsWith(s, q)
  {
    assert s[..|q|] == p[..|q|];
  }

  /** `s.replace(from, to)` for single characters: every `from` becomes `to`. */
  function ReplaceChar(s: string, from: char, to: char): (r: string)
    ensures |r| == |s|
    ensures forall i :: 0 <= i < |s| && s[i] != from ==> r[i] == s[i]
    ensures forall i :: 0 <= i < |s| && s[i] == from ==> r[i] == to
    ensures from != to ==> from !in r
  {
    seq(|s|, i requires 0 <= i < |s| => if s[i] == from then to else s[i])
  }

  /** `s.replace(target, replacement)` for a non-empty `target`: occurrences are found left to
      right and replaced without overlapping, as Kotlin's `String.replace`
      does with repeated `indexOf`. */
  function ReplaceAll(s: string, target: string, replacement: string): string
    requires |target| > 0
    decreases |s|
  {
    if |s| < |target| then s
    else if s[..|target|] == target then replacement + ReplaceAll(s[|target|..], target, replacement)
    else [s[0]] + ReplaceAll(s[1..], target, replacement)
  }

  /** Replacing a string that does not occur leaves the text unchanged. */
  lemma {:induction false} ReplaceAllAbsent(s: string, target: string, replacement: string)
    requires |target| > 0 && !Contains(s, target)
    ensures ReplaceAll(s, target, replacement) == s
    decreases |s|
  {
    if |s| >= |target| {
      ReplaceAllAbsent(s[1..], target, replacement);
      assert [s[0]] + s[1..] == s;
    }
  }

  /** No occurrence of `target` can begin inside `p`: from every position of
      `p`, some character of `target` is contradicted before `p` ends. */
  predicate NoMatchStartsIn(p: string, target: string) {
    |target| > 0 && forall i :: 0 <= i < |p| ==> MismatchWithin(p, target, i)
  }

  /** An occurrence of `target` at position `i` of `p` is ruled out by `p` alone. */
  predicate MismatchWithin(p: string, target: string, i: int)
    requires 0 <= i < |p|
  {
    exists j :: 0 <= j < |target| && i + j < |p| && p[i + j] != target[j]
  }

  /** Where `target` does not start, the first character is kept. */
  lemma ReplaceAllSkip(s: string, target: string, replacement: string)
    requires |target| > 0 && |s| > 0 && !StartsWith(s, target)
    ensures ReplaceAll(s, target, replacement) == [s[0]] + ReplaceAll(s[1..], target, replacement)
  {
    if |s| < |target| {
      assert [s[0]] + s[1..] == s;
    }
  }

  lemma NoMatchStartsInTail(p: string, target: string)
    requires |p| > 0 && NoMatchStartsIn(p, target)
    ensures NoMatchStartsIn(p[1..], target)
  {
    forall i | 0 <= i < |p[1..]| ensures MismatchWithin(p[1..], target, i) {
      assert MismatchWithin(p, target, i + 1);
      var j :| 0 <= j < |target| && i + 1 + j < |p| && p[i + 1 + j] != target[j];
      assert p[1..][i + j] == p[i + 1 + j];
    }
  }

  lemma NoMatchAtStart(p: string, rest: string, target: string)
    requires |p| > 0 && NoMatchStartsIn(p, target)
    ensures !StartsWith(p + rest, target)
  {
    assert MismatchWithin(p, target, 0);
    var j :| 0 <= j < |target| && j < |p| && p[j] != target[j];
    var s := p + rest;
    assert s[j] == p[j];
    assert |target| <= |s| ==> s[..|target|][j] == s[j];
  }

  /** A prefix in which no occurrence of `target` can begin is copied unchanged. */
  lemma {:induction false} ReplaceAllKeepsPrefix(p: string, rest: string, target: string, replacement: string)
    requires NoMatchStartsIn(p, target)
    ensures ReplaceAll(p + rest, target, replacement) == p + ReplaceAll(rest, target, replacement)
    decreases |p|
  {
    if |p| > 0 {
      NoMatchAtStart(p, rest, target);
      NoMatchStartsInTail(p, target);
      ReplaceAllKeepsPrefix(p[1..], rest, target, replacement);
      KeepsPrefixStep(p, rest, target, replacement);
    } else {
      assert p + rest == rest;
    }
  }

  lemma KeepsPrefixStep(p: string, rest: string, target: string, replacement: string)
    requires |p| > 0 && |target| > 0 && !StartsWith(p + rest, target)
    requires ReplaceAll(p[1..] + rest, target, replacement) == p[1..] + ReplaceAll(rest, target, replacement)
    ensures ReplaceAll(p + rest, target, replacement) == p + ReplaceAll(rest, target, replacement)
  {
    var s := p + rest;
    ReplaceAllSkip(s, target, replacement);
    assert s[1..] == p[1..] + rest;
    assert s[0] == p[0];
    assert [p[0]] + p[1..] == p;
  }

  /** A string that begins with `target` has that first occurrence replaced. */
  lemma ReplaceAllLeading(target: string, rest: string, replacement: string)
    requires |target| > 0
    ensures ReplaceAll(target + rest, target, replacement) == replacement + ReplaceAll(rest, target, replacement)
  {
    var s := target + rest;
    assert s[..|target|] == target;
    assert s[|target|..] == rest;
  }

  /** Kotlin's `Char.isWhitespace()`: Java's `Character.isWhitespace` or
      `Character.isSpaceChar`, i.e. the ASCII controls TAB..CR and FS..US plus
      every Unicode space, line and paragraph separator. */
  predicate IsWhitespace(c: char) {
    var n := c as int;
    (9 <= n <= 13) || (28 <= n <= 32) || n == 0xA0 || n == 0x1680
    || (0x2000 <= n <= 0x200A) || n == 0x2028 || n == 0x2029
    || n == 0x202F || n == 0x205F || n == 0x3000
  }

  /** Every position of `s` in `[lo, hi)` holds whitespace. */
  predicate WhitespaceBetween(s: string, lo: int, hi: int)
    requires 0 <= lo <= hi <= |s|
  {
    forall x :: lo <= x < hi ==> IsWhitespace(s[x])
  }

  /** Neither end of `s` is whitespace. */
  predicate Tight(s: string) {
    |s| > 0 ==> !IsWhitespace(s[0]) && !IsWhitespace(s[|s| - 1])
  }

  /** The first index at or after `i` that does not hold whitespace (or `|s|`):
      the forward scan of `trim()`. */
  function FirstNonSpace(s: string, i: nat): (n: nat)
    requires i <= |s|
    ensures i <= n <= |s|
    ensures WhitespaceBetween(s, i, n)
    ensures n < |s| ==> !IsWhitespace(s[n])
    decreases |s| - i
  {
    if i < |s| && IsWhitespace(s[i]) then FirstNonSpace(s, i + 1) else i
  }

  /** The end of the last non-whitespace character in `[lo, j)` (or `lo`): the
      backward scan of `trim()`. */
  function LastNonSpace(s: string, lo: nat, j: nat): (e: nat)
    requires lo <= j <= |s|
    ensures lo <= e <= j
    ensures WhitespaceBetween(s, e, j)
    ensures e > lo ==> !IsWhitespace(s[e - 1])
    decreases j
  {
    if j > lo && IsWhitespace(s[j - 1]) then LastNonSpace(s, lo, j - 1) else j
  }

  /** `r` is `s` with whitespace removed from both ends: a tight infix of
      `s` with only whitespace around it. */
  ghost predicate IsTrimOf(r: string, s: string) {
    Tight(r)
    && exists i :: 0 <= i <= |s| - |r| && r == s[i..i + |r|]
                   && WhitespaceBetween(s, 0, i) && WhitespaceBetween(s, i + |r|, |s|)
  }

  /** `s.trim()`: the infix of `s` left after removing whitespace from both ends. */
  function Trim(s: string): (r: string)
    ensures IsTrimOf(r, s)
  {
    var i := FirstNonSpace(s, 0);
    var j := LastNonSpace(s, i, |s|);
    var r := s[i..j];
    assert |r| > 0 ==> r[0] == s[i] && r[|r| - 1] == s[j - 1];
    assert r == s[i..i + |r|];
    r
  }

  /** Two splits of `s` into whitespace margins around a tight middle agree. */
  lemma SplitsAgree(s: string, i: int, j: int, k: int, m: int)
    requires 0 <= i <= j <= |s| && 0 <= k <= m <= |s|
    requires WhitespaceBetween(s, 0, i) && WhitespaceBetween(s, j, |s|)
    requires WhitespaceBetween(s, 0, k) && WhitespaceBetween(s, m, |s|)
    requires i < j ==> !IsWhitespace(s[i]) && !IsWhitespace(s[j - 1])
    requires k < m ==> !IsWhitespace(s[k]) && !IsWhitespace(s[m - 1])
    ensures s[i..j] == s[k..m]
  {
    if i < j {
      assert k <= i < m;
      assert k == i && m == j;
    } else {
      assert k == m;
    }
  }

  lemma TightEnds(s: string, i: int, j: int)
    requires 0 <= i <= j <= |s| && Tight(s[i..j])
    ensures i < j ==> !IsWhitespace(s[i]) && !IsWhitespace(s[j - 1])
  {
    if i < j {
      assert s[i..j][0] == s[i] && s[i..j][j - i - 1] == s[j - 1];
    }
  }

  /** The trimmed infix is unique: any split of `s` into whitespace, a tight
      middle and whitespace yields exactly `Trim(s)`. */
  lemma TrimUnique(s: string, i: nat, j: nat)
    requires i <= j <= |s|
    requires WhitespaceBetween(s, 0, i) && WhitespaceBetween(s, j, |s|) && Tight(s[i..j])
    ensures Trim(s) == s[i..j]
  {
    var k := FirstNonSpace(s, 0);
    var m := LastNonSpace(s, k, |s|);
    assert Trim(s) == s[k..m];
    TightEnds(s, i, j);
    SplitsAgree(s, i, j, k, m);
  }

  /** Trimming twice is trimming once. */
  lemma TrimIdempotent(s: string)
    ensures Trim(Trim(s)) == Trim(s)
  {
    var r := Trim(s);
    assert r[0..|r|] == r;
    TrimUnique(r, 0, |r|);
  }
}

=== FILE: wrappers.dfy ===
/** Failure-compatible wrappers used across the model: an optional value (a
    Kotlin nullable) and a result that is either a value or an error (a thrown
    IllegalStateException in the build script). */
module Wrappers {

  datatype Option<+T> = None | Some(value: T) {

    /** The wrapped value, or `default` when absent (Kotlin's `?:`). */
    function GetOr(default: T): T {
      match this
      case Some(v) => v
      case None => default
    }
  }

  datatype Result<+R, +E> = Success(value: R) | Failure(error: E) {

    predicate IsFailure() {
      Failure?
    }

    function PropagateFailure<U>(): Result<U, E>
      requires Failure?
    {
      Failure(error)
    }

    function Extract(): R
      requires Success?
    {
      value
    }
  }
}
